=== FILE: README.md ===
# LaundryEase admin panel — a Dafny model of its session, routing and list logic

This project models the behaviour of the LaundryEase admin dashboard, a React
single-page application, as pure Dafny functions over immutable datatypes, and
proves properties of the model. It covers the following parts.

- **Session manager.** `AuthProvider` keeps a record of `currentUser`,
  `isAuthenticated`, `isAdmin`, `isLoading` and `token`. Its transitions are
  boot verification, login, logout, password reset and profile update.
  Browser storage, the client's default `Authorization` header and the last
  forced navigation are the abstract state `Api.Env`. Backend replies, the
  decoded token expiry and the clock are parameters.
- **HTTP facade.** This covers `setAuthToken`, the request interceptor that
  stamps `Bearer <token>` on outgoing calls, and the response interceptor that
  turns a 401 into "forget the token, go to /login".
- **Routing.** The `ProtectedRoute` guard and the route table of the
  application, with a path resolver, give the screen shown for any path and
  session.
- **List pages.**
  - Page stepping, the sort-column toggle and query-filter construction.
  - The local order-status update, the date-range filter and the column sort of
    the Orders table, plus its item count.
  - The real-or-sample fallbacks.
  - The rule that administrators are never deleted.
- **Service form.** The ordered, first-failure-wins validator and the edits of
  the priced item list.
- **Display normalisers.** `formatStatus`, `formatPaymentMethod`,
  `formatCustomerName`, the payment detail loading sequence, the dashboard's
  figure defaulting and the sidebar's active-link test and submenu toggle.
  Neither sidebar helper has an effect in the running app. The `isActive`
  helper is never called: the link classes use React Router's own `isActive`
  flag, which shadows it. `toggleSubMenu` is unreachable, because no sidebar
  item has `subItems`. The two are modelled as the functions the component
  defines.

Modules follow the program's files:

| module | source |
|---|---|
| `Common` | JavaScript truthiness, `||` defaults, `String.prototype.trim`, `startsWith` |
| `TextOrder` | JavaScript `<` on strings |
| `Format` | the `formatStatus` / `formatPaymentMethod` / `formatCustomerName` helpers |
| `Api` | `src/services/api.js` |
| `Auth` | `src/context/AuthContext.jsx` |
| `Routes` | `src/App.jsx` |
| `Sidebar` | `src/components/common/Sidebar.jsx` |
| `ListView` | the helpers Orders, Payments and Users each define |
| `Orders` | `src/pages/Orders.jsx` |
| `Services` | `src/pages/Services.jsx` |
| `Users` | `src/pages/Users.jsx` |
| `Payments` | `src/pages/Payments.jsx` |
| `PaymentDetails` | `src/pages/PaymentDetails.jsx` |
| `Dashboard` | `src/pages/Dashboard.jsx` |

The model follows the code as written. Notable behaviours:

- `login` never sets `isLoading`.
- A 401 from any call, the login call included, clears the stored token, because
  the response interceptor sees every response.
- A login response that carries a token but no `user` record still stores the
  token and sets `isAuthenticated` before `user.role` throws. The caller is
  then told "Invalid credentials".
- `updateProfile` never recomputes `isAdmin`.
- A profile reply with `success` but without `data` logs out, because reading
  `data.role` throws.

## Model

| member | source | states |
|---|---|---|
| Api.SetAuthToken | src/services/api.js:72-78 | a truthy token installs a default header from which exactly that token reads back; a falsy one removes the header; storage and navigation are untouched |
| Api.SetAuthTokenIdempotent | src/services/api.js:72-78 | setting the same token twice is setting it once |
| Api.BearerRoundTrip | src/services/api.js:22 | the token is recovered from the `Bearer ` header built from it |
| Api.InterceptRequest | src/services/api.js:18-31 | with a stored truthy token the request carries `Bearer <token>`; without one the request is unchanged; method and url are never touched |
| Api.IssuedAuthorization | src/services/api.js:20-25 | the header a request goes out with is the stored token's when there is one, else the client default |
| Api.HandleResponse | src/services/api.js:34-69 | every outcome reaches the caller unchanged; a 401 response removes the stored token and navigates to /login; other errors, missing responses, setup errors and successes leave the browser state alone |
| Api.HandleResponseIdempotent | src/services/api.js:52-56 | handling a 401 twice leaves the same state as once |
| Auth.Mount | src/context/AuthContext.jsx:9-13 | the provider starts loading and anonymous, holding the stored token only if it is truthy |
| Auth.Logout | src/context/AuthContext.jsx:102-110 | after logout the session is anonymous with no token, storage holds no token, the default header is gone and the browser is sent to /login |
| Auth.LogoutIdempotent | src/context/AuthContext.jsx:102-110 | logging out twice equals logging out once |
| Auth.VerifyToken | src/context/AuthContext.jsx:17-57 | loading ends on every path; without a token nothing else changes; an undecodable or expired token logs out; otherwise the session is authenticated exactly when the profile reply is a success with data, and then holds that user, `isAdmin` from its role, and the header for the token, with the stored token and the location unchanged; every other outcome is an anonymous session with no stored token |
| Auth.BootWithoutToken | src/context/AuthContext.jsx:19-22 | with nothing stored, boot ends anonymous and not loading, touching no browser state |
| Auth.BootWithExpiredToken | src/context/AuthContext.jsx:29-36 | a stored token whose `exp` is below now/1000 ends in an anonymous, settled session with the token removed from storage and the header |
| Auth.Login | src/context/AuthContext.jsx:60-99 | success exactly when the reply has a truthy token and a user; success stores the token, signs the user in with `isAdmin` from the role and installs the header; a token without a user stores it, sets `isAuthenticated` and reports "Invalid credentials"; no token changes nothing and reports the server message or "Login failed"; a rejected call leaves the session and reports the server message or "Invalid credentials" |
| Auth.LoginThenVerifySettles | src/context/AuthContext.jsx:67-76 | after a successful login, the verification the token change triggers either confirms the profile's user with `isAdmin` from its role, or logs out with storage cleared; loading is over |
| Auth.ResetPassword | src/context/AuthContext.jsx:113-123 | the session is never touched; success exactly when the call resolved, and failure reports the server message or "Failed to reset password" |
| Auth.UpdateProfile | src/context/AuthContext.jsx:126-142 | the user is replaced by the server copy exactly on `success`; flags, loading and token never change; a reply without `success` reports its own message, which may be absent; a rejected call reports the server message or "Failed to update profile" |
| Auth.ApplyKeepsInvariant | src/context/AuthContext.jsx:43-44 | every transition keeps `isAdmin ==> isAuthenticated` |
| Auth.RunKeepsInvariant | src/context/AuthContext.jsx:71-72 | any run of transitions from a state with `isAdmin ==> isAuthenticated` keeps it |
| Auth.ReachableStatesKeepInvariant | src/context/AuthContext.jsx:106-107 | every state reachable from mount has `isAdmin ==> isAuthenticated` |
| Auth.RunEndingInLogout | src/context/AuthContext.jsx:102-108 | whatever came before, a run ending in logout is anonymous with no stored token and no header |
| Auth.UnauthorizedThenReload | src/services/api.js:52-56 | a 401 on any call, the forced reload and the boot verification end in an anonymous, settled session with no stored token at /login |
| Routes.ProtectedRoute | src/App.jsx:24-45 | exactly one of spinner / redirect / access denied / children: spinner iff loading, redirect iff settled and not authenticated, denied iff authenticated but not admin, children iff authenticated admin |
| Routes.ProtectedExactlyAdminPages | src/App.jsx:51-72 | a route is wrapped in `ProtectedRoute` exactly when it is not the login or forgot-password page |
| Routes.RoutesDisjoint | src/App.jsx:51-72 | no two routes of the table match the same path |
| Routes.FindRoute | src/App.jsx:49-76 | the route found matches the path and is in the table; none is found exactly when no route matches |
| Routes.SplitJoin | src/App.jsx:63-71 | splitting a joined path gives back its segments |
| Routes.AdminPagesNeedAdmin | src/App.jsx:24-72 | an admin page is on screen only in a settled, authenticated admin session; the login and forgot-password pages show in every session |
| Routes.LoginIsPublic | src/App.jsx:51 | "/login" shows the login page whatever the session |
| Sidebar.IsActiveSegmentBoundary | src/components/common/Sidebar.jsx:25-27 | a link is active exactly when its path is a prefix of the location ending at the end of the location or at a `/` |
| Sidebar.IsActiveExamples | src/components/common/Sidebar.jsx:26 | "/orders" is active on "/orders/abc" and not on "/ordersx" |
| Sidebar.ToggleSubMenu | src/components/common/Sidebar.jsx:21-23 | the result is the menu exactly when it was not the open one, and nothing exactly when it was |
| Sidebar.ToggleSubMenuProperties | src/components/common/Sidebar.jsx:21-23 | toggling twice from closed closes again; toggling while another is open switches to it |
| ListView.PageSteps | src/pages/Orders.jsx:91-97 | (the same clamps are in src/pages/Payments.jsx:60-66 and src/pages/Users.jsx:54-60) previous never goes below 1 and stays at 1; next never passes the last page; from a page in range both stay in range and undo each other away from the ends |
| ListView.TotalPagesOf | src/pages/Users.jsx:38 | a missing or zero page count reads as one page, any other count is kept |
| ListView.HandleSort | src/pages/Orders.jsx:139-146 | the clicked column becomes the sort column; on the current column the direction flips, on another it is ascending |
| ListView.HandleSortTwice | src/pages/Orders.jsx:139-146 | clicking the current column twice restores the sort; clicking a new column twice sorts it descending |
| ListView.ListFilters | src/pages/Payments.jsx:32-40 | `status` is sent exactly when the status filter is non-empty, `search` exactly when the search term is |
| ListView.OrderFilters | src/pages/Orders.jsx:46-57 | the same, plus the cache-busting timestamp |
| ListView.FiltersRoundTrip | src/pages/Orders.jsx:46-54 | reading the sent filters back (absent as "") gives the page's inputs |
| ListView.HandleFilterChange | src/pages/Payments.jsx:68-71 | a new status filter applies from page 1 with the search term kept |
| ListView.HandleSearch | src/pages/Orders.jsx:85-89 | the page returns to 1 with the filters kept; the first fetch asks for the page from before the reset, and page 1 is fetched last, a second time exactly when the page was not already 1 |
| ListView.FilterThenSearch | src/pages/Payments.jsx:54-71 | the last filter choice wins, and a search right after a filter change fetches page 1 only |
| ListView.RealOrMock | src/pages/Payments.jsx:167 | the fetched list when non-empty, otherwise the sample list (the same fallback is `displayUsers` in src/pages/Users.jsx:115) |
| Orders.SetStatus | src/pages/Orders.jsx:119-123 | the list keeps its length; the orders with the id get the new status and nothing else changes; all other orders are unchanged |
| Orders.HandleStatusUpdate | src/pages/Orders.jsx:109-136 | the local list changes only when the backend reports success |
| Orders.SetStatusIdempotent | src/pages/Orders.jsx:119-123 | updating again to the same status changes nothing; ids are untouched |
| Orders.FilterByDate | src/pages/Orders.jsx:193-201 | without both dates the list is unchanged; with both, exactly the orders dated within the inclusive range are kept |
| Orders.KeepInRangeConcat | src/pages/Orders.jsx:194-200 | the date filter distributes over concatenation, so kept orders keep their relative order |
| Orders.KeepInRangeIdempotent | src/pages/Orders.jsx:194-200 | filtering twice is filtering once |
| Orders.CompareTransitive | src/pages/Orders.jsx:223-225 | the comparator's "at most equal" is transitive for every column and direction, so it is a consistent comparator |
| Orders.CompareFlip | src/pages/Orders.jsx:223-225 | the comparator is antisymmetric |
| Orders.SortOrdersSorted | src/pages/Orders.jsx:204-226 | the sorted list is a permutation of its input in which no earlier order compares above a later one |
| Orders.SortOrdersStable | src/pages/Orders.jsx:204-226 | for every order, the orders that tie with it appear in the sorted list in their input order |
| Orders.InsertTies | src/pages/Orders.jsx:204-226 | inserting an order puts it in front of the members of its tie class already in the list |
| Orders.SortedMeaning | src/pages/Orders.jsx:204-226 | in a sorted list ascending never puts a larger key first and descending never a smaller key first, for id, customer name (or ""), date, amount and status |
| Orders.VisibleOrders | src/pages/Orders.jsx:190-226 | the rendered list is a permutation of the date-filtered list |
| Orders.SumQuantitiesConcat | src/pages/Orders.jsx:401-403 | the item count is additive over item lists |
| Orders.ItemCount | src/pages/Orders.jsx:401-403 | an order without an item array counts 0; a single item counts its quantity, or 0 without one; the count is not negative while no quantity is |
| Orders.SumQuantitiesNonNegative | src/pages/Orders.jsx:401-403 | the item count is never negative when no quantity is |
| Orders.StatusLabel | src/pages/Orders.jsx:429 | an order without a status reads "Unknown"; otherwise the label is `formatStatus` of the status, so it keeps the length and has no underscore |
| Format.FormatStatusSpec | src/pages/Orders.jsx:171-173 | every underscore becomes a space, exactly the word-initial characters are upper-cased, and the length is kept |
| Format.CapitalizeFromSpec | src/pages/Orders.jsx:171-173 | the `\b\w` replacement upper-cases exactly the word characters not preceded by a word character |
| Format.CapitalizeFromConcat | src/pages/Orders.jsx:171-173 | capitalising a concatenation capitalises each part, the second knowing whether the first ended inside a word |
| Format.FormatStatusOfSnakeCase | src/pages/Orders.jsx:171-173 | a status made of lower-case words joined by underscores reads as the same words in Title Case joined by single spaces |
| Format.FormatStatusIdempotent | src/pages/Orders.jsx:171-173 | formatting a formatted status changes nothing |
| Format.FormatStatusExample | src/pages/Orders.jsx:171-173 | "out_for_delivery" becomes "Out For Delivery" |
| Format.FormatStatusOrUnknown | src/pages/PaymentDetails.jsx:85-88 | an absent or empty status reads "Unknown", any other is formatted |
| Format.FormatPaymentMethod | src/pages/Payments.jsx:91-97 | "khalti" shows as "Khalti", "cash_on_delivery" as "Cash on Delivery", and every other value unchanged |
| Format.FormatPaymentMethodSpec | src/pages/Payments.jsx:91-97 | a method changes exactly when it is "khalti" or "cash_on_delivery", and formatting again changes nothing |
| Format.FormatPaymentMethodOrUnknown | src/pages/PaymentDetails.jsx:91-98 | an absent or empty method reads "Unknown", any other is formatted by `formatPaymentMethod` |
| Format.FormatCustomerName | src/pages/PaymentDetails.jsx:111-115 | never empty; "N/A" without a user; a non-empty full name is preferred; otherwise first and last name (absent as "") joined by a space and trimmed, or "N/A" when that is empty |
| Format.FormatCustomerNameSingle | src/pages/PaymentDetails.jsx:114 | without a full name, a single trimmed name next to an absent or blank one is shown as it is |
| Format.FormatCustomerNameJoin | src/pages/PaymentDetails.jsx:114 | without a full name, trimmed non-empty first and last names give exactly "first last" |
| Format.FormatCustomerNameBlank | src/pages/PaymentDetails.jsx:114 | first and last names of white space only give "N/A" |
| Common.Trim | src/pages/Services.jsx:135 | the result is the input with only white space removed from each end, and it neither starts nor ends with white space |
| Common.TrimOfPadded | src/pages/PaymentDetails.jsx:114 | trimming removes exactly the white space around a string that neither starts nor ends with white space |
| Common.TrimIdempotent | src/pages/Services.jsx:135 | trimming a trimmed string changes nothing |
| Common.TrimEmptyIffAllSpace | src/pages/Services.jsx:135 | a string trims to "" exactly when it is all white space |
| Services.ValidateForm | src/pages/Services.jsx:134-164 | valid exactly when name, description and duration are non-blank after trim and every item is valid; a blank name, description or duration reports its own failure in that order |
| Services.ValidateItems | src/pages/Services.jsx:151-161 | valid exactly when every item has a non-blank name and a non-NaN, non-negative price; the only failures are the item-name and item-price ones |
| Services.ValidateFormIsFirstFailure | src/pages/Services.jsx:134-164 | the validator is exactly the first failing check of the ordered list name, description, duration, then per item its name and its price |
| Services.FirstFailureIsEarliest | src/pages/Services.jsx:134-164 | the failure reported is that of the earliest failing check |
| Services.BlankFormNeedsName | src/pages/Services.jsx:99-113 | the create form is rejected for its name first |
| Services.AddItemField | src/pages/Services.jsx:83-88 | a blank item is appended and the existing items are unchanged |
| Services.RemoveItemField | src/pages/Services.jsx:91-96 | with one item it is a no-op; otherwise exactly index i is removed, the rest kept in order; the list never empties |
| Services.AddThenRemove | src/pages/Services.jsx:83-96 | removing the item just added restores the list |
| Services.HandleItemChange | src/pages/Services.jsx:73-80 | only the given field of the given item changes |
| Services.OpenEditModal | src/pages/Services.jsx:116-131 | the form copies the service, and an empty item list becomes one blank item |
| Services.ItemsNeverEmpty | src/pages/Services.jsx:91-124 | both modals open with an item, and no edit empties the list |
| Users.HandleDeleteClick | src/pages/Users.jsx:62-65 | the clicked user is selected and the modal opens |
| Users.HandleDeleteConfirm | src/pages/Users.jsx:67-84 | with nothing selected nothing happens; otherwise the selected user's deletion is requested, and on success the modal closes and the list reloads, on failure the error message is set and the selection kept |
| Users.NeverDeletesAdmin | src/pages/Users.jsx:235-243 | no sequence of clicks, cancels and confirmations requests the deletion of an administrator |
| Users.PageNeverDeletesAdmin | src/pages/Users.jsx:62-84 | from the page's initial state no administrator is ever deleted |
| Users.ConfirmAfterSuccessIsNoOp | src/pages/Users.jsx:67-74 | a second confirmation after a successful deletion sends no request |
| Payments.FormatStatusCell | src/pages/Payments.jsx:86-88 | an absent status stays absent; a present one is formatted |
| Payments.FormatMethodCell | src/pages/Payments.jsx:91-97 | an absent method stays absent; a present one is formatted |
| Payments.MethodCellAsWritten | src/pages/Payments.jsx:307 | the method column is empty exactly when the record has no `paymentMethod`, and otherwise shows it formatted |
| Payments.MethodColumnBlankAsWritten | src/pages/Payments.jsx:307 | a record whose method is only in `method` gets an empty method column while its detail page names the method |
| Payments.MethodCell | src/pages/Payments.jsx:307 | reading `paymentMethod`, or else `method`, the column is empty exactly when `paymentMethod` is unset or empty and `method` is absent, otherwise shows whichever of the two is read formatted, and agrees with the written column whenever `paymentMethod` is non-empty |
| Payments.ListAndDetailAgree | src/pages/PaymentDetails.jsx:85-98 | on a record whose `paymentMethod` is unset or equals `method`, the list row and the detail page of that record agree on every non-empty status and method, and differ exactly on absent or empty ones, where only the detail page says "Unknown" |
| PaymentDetails.FetchAsWritten | src/pages/PaymentDetails.jsx:32-66 | loading ends; the page error is set exactly when the payment call fails or has no data; the customer and order are requested exactly when the payment refers to them |
| PaymentDetails.StaleCustomerAsWritten | src/pages/PaymentDetails.jsx:40-48 | as written, a payment without a customer loaded after one with a customer is shown with the earlier customer |
| PaymentDetails.Fetch | src/pages/PaymentDetails.jsx:32-66 | as above, and a customer or order in the state is exactly the reply to the request made for this payment |
| PaymentDetails.FetchAgreesOnFirstLoad | src/pages/PaymentDetails.jsx:32-66 | on the first load the corrected and the written sequence agree |
| PaymentDetails.DisplayPayment | src/pages/PaymentDetails.jsx:69-74 | absent exactly when the payment is; otherwise the payment with `paymentMethod` from `method` and the fetched customer and order |
| PaymentDetails.ViewOf | src/pages/PaymentDetails.jsx:117-131 | the spinner exactly while loading, then the error exactly when one is set, then "not found" exactly without a payment, and otherwise the payment's details |
| PaymentDetails.MethodText | src/pages/PaymentDetails.jsx:197 | on the displayed copy the method line is the detail formatting of `method`, and "Unknown" without one |
| PaymentDetails.CustomerCellOf | src/pages/PaymentDetails.jsx:355-397 | the card names the customer exactly when one is attached, shows a spinner exactly when none is and the payment has a `userId`, and says the information is not available otherwise |
| PaymentDetails.FailedCustomerSpinsAsWritten | src/pages/PaymentDetails.jsx:40-48 | when the payment names a customer whose request fails or returns no data, loading is over and the details are shown, with the customer card still a spinner |
| PaymentDetails.SettledCustomerCell | src/pages/PaymentDetails.jsx:355-397 | once loading is over the card never spins: it names the customer exactly when one is attached and otherwise says the information is not available |
| PaymentDetails.FetchThenCustomerCell | src/pages/PaymentDetails.jsx:32-66 | after a load the settled card names the customer exactly when the payment has a `userId` and that customer's request returned one, and otherwise says the information is not available |
| PaymentDetails.FetchThenView | src/pages/PaymentDetails.jsx:32-131 | after a load the page shows the error exactly when the payment call failed; otherwise it shows that payment with only the customer and order fetched for it; a failed customer or order request never shows an error |
| Dashboard.DisplayStats | src/pages/Dashboard.jsx:139-145 | absent stats show the sample figures; present stats show each count or 0, and the recent orders or, only when missing, the sample orders |
| Dashboard.DisplayPaymentStats | src/pages/Dashboard.jsx:148-154 | absent payment stats show the sample figures; present ones show each count or 0 |
| Dashboard.DisplayStatsNormalises | src/pages/Dashboard.jsx:139-145 | re-normalising shown stats changes nothing, and a present object with no figures shows zeros and an empty list |
| Dashboard.DisplayPaymentStatsNormalises | src/pages/Dashboard.jsx:148-154 | re-normalising shown payment stats changes nothing, and a present object with no figures shows zeros |
| Dashboard.Load | src/pages/Dashboard.jsx:30-67 | loading ends without an error; each reply is stored only when it carries data |
| Dashboard.FirstLoadAlwaysShowsFigures | src/pages/Dashboard.jsx:30-154 | whatever the backends answer, the first load shows figures: for each of the two requests, a failure or a reply without data shows the sample figures, and a reply with data shows its own figures normalised |

## Findings

| source | as written | input that shows it | evidently intended | confidence | as-written member | corrected member |
|---|---|---|---|---|---|---|
| src/pages/PaymentDetails.jsx:40-57 | `user` and `order` are set only when fetched and never reset, so they survive from the previously viewed payment | with the detail page showing a payment whose `userId` is "u1", a programmatic `navigate` to the detail URL of a payment without `userId` (no link in the app does this today: detail pages are reached only from the Payments list, which unmounts the page first) | the second payment is shown without a customer | low (latent), not executed | PaymentDetails.StaleCustomerAsWritten | PaymentDetails.Fetch |
| src/pages/PaymentDetails.jsx:391-394 | without a fetched customer the card shows a spinner whenever the payment has a `userId`, and nothing fetches the customer again once loading is over | a payment with `userId` "u1" whose `GET /users/u1` fails or answers without data: the page finishes loading and the customer card spins forever | once loading is over, "Customer information not available" | medium, not executed | PaymentDetails.FailedCustomerSpinsAsWritten | PaymentDetails.SettledCustomerCell |
| src/pages/Payments.jsx:307 | the method column reads `paymentMethod`, while the detail page reads `method` (src/pages/PaymentDetails.jsx:71, 197) | a payment record from the backend with `method` "khalti" and no `paymentMethod`: its list row has an empty method cell while its detail page shows "Khalti" | the column reads `paymentMethod`, or else `method`, as the detail page's displayed copy does | medium, not executed | Payments.MethodColumnBlankAsWritten | Payments.MethodCell |

The same holds, under the same navigation, for a customer or order request that
fails: as written the previous payment's record stays on screen. Both need one
mounted detail page to load a second payment, which no path in the app does
today, so the defect is latent. `PaymentDetails.FetchThenView` is stated about the
corrected `PaymentDetails.Fetch`, which agrees with the written sequence on a
first load (`PaymentDetails.FetchAgreesOnFirstLoad`), the only load the spinner
finding needs. `PaymentDetails.FetchThenCustomerCell` is stated about the corrected
card `PaymentDetails.SettledCustomerCell`.

## Left out

- Rendering, styling and the presentational components have no behaviour beyond markup.
- axios transport, `localStorage`, `window.location` and `navigate` are foreign I/O. They are the abstract state `Api.Env`, and every reply is a parameter.
- JWT decoding is a library call: the decoded result, and whether it decodes at all, is a parameter.
- The clock is a parameter.
- Effect scheduling, out-of-order resolution of concurrent requests, the modal-closing timeout and the `useFetch` hook are concurrency and hook plumbing, and are not modelled.
- The resource service wrappers only build URLs and call axios.
- Profile.jsx destructures functions `AuthProvider` does not provide.
- ThemeContext depends on the DOM and `matchMedia`.
- The sample data arrays are parameters. Only the sample figures of the dashboard are constants.
- Orders.FilterByDate: dates are integer timestamps compared inclusively. `new Date` parsing and date-fns `isWithinInterval` are not modelled, including its behaviour for a start after the end, which depends on the date-fns version.
- Orders.KeyLess: strings are compared as sequences of Dafny characters, while JavaScript compares UTF-16 code units. The two orders differ only outside the Basic Multilingual Plane.
- Orders.KeyLess: an absent `status` or `totalAmount`, or a `createdAt` that `new Date` cannot parse, makes both `<` and `>` false in JavaScript, so the comparator answers 0 against every order and the result depends on the engine. The model reads an absent status as "" (sorted first) and dates as integers, so this case is not modelled.
- ListView.HandleSearch: the two fetches may resolve in either order; which reply the page keeps is not modelled.
- Payments.FormatMethodCell: the list reads the method from `paymentMethod` and the detail page from `method`. The sample payments carry only `paymentMethod`, so their detail page would say "Unknown"; `Payments.ListAndDetailAgree` covers only records whose two fields do not disagree.
- Orders.SortOrders: the model is a stable insertion sort checked against the comparator. "desc" orders by the reversed comparator, which keeps ties in input order, so it is not literally the reverse of "asc".
- Services.HandleItemChange: `parseFloat` is not modelled; the parsed price (a number or NaN) is the input. An index outside the list, which the form never passes, is excluded.
- Services.ValidateForm: fields are strings. A non-string `estimatedDuration` coming from the backend, on which `.trim()` would throw, is not modelled.
- Dashboard.OrZero: figures are integers. NaN, which `|| 0` also maps to 0, is not modelled.
- Routes.Resolve: React Router matches paths case-insensitively. The model splits on `/`, drops empty segments and compares segments exactly, so case is significant.
- Money formatting with `toFixed`, and date formatting, are floating-point and locale display only.

=== FILE: api.dfy ===
/** The HTTP client facade of the dashboard: the process-wide default
    `Authorization` header, the request interceptor that stamps the stored token
    on every call, and the response interceptor that turns a 401 into a forced
    return to the login page. Transport, storage and `window.location` are the
    abstract state `Env`; responses are inputs. */
module Api {
  import opened Common

  /** The browser and client state the facade reads and writes.
      `storedToken` is `localStorage["token"]`, `defaultAuthorization` the
      client's default header, `location` the last navigation requested. */
  datatype Env = Env(storedToken: Option<string>, defaultAuthorization: Option<string>, location: Option<string>)

  const BearerPrefix: string := "Bearer "

  function Bearer(token: string): string
  {
    BearerPrefix + token
  }

  /** Reads the token back out of an `Authorization` header. */
  function TokenOfHeader(header: string): Option<string>
  {
    if StartsWith(header, BearerPrefix) then Some(header[|BearerPrefix|..]) else None
  }

  lemma BearerRoundTrip(token: string)
    ensures TokenOfHeader(Bearer(token)) == Some(token)
  {
    assert Bearer(token)[..|BearerPrefix|] == BearerPrefix;
  }

  /** `setAuthToken`: a truthy token installs `Bearer <token>` as the default header,
      anything else deletes it. */
  function SetAuthToken(env: Env, token: Option<string>): (r: Env)
    ensures r.storedToken == env.storedToken && r.location == env.location
    ensures Truthy(token) ==>
      r.defaultAuthorization.Some? && TokenOfHeader(r.defaultAuthorization.value) == token
    ensures !Truthy(token) ==> r.defaultAuthorization.None?
  {
    BearerRoundTrip(if token.Some? then token.value else "");
    env.(defaultAuthorization := if Truthy(token) then Some(Bearer(token.value)) else None)
  }

  /** Setting the same token twice is setting it once. */
  lemma SetAuthTokenIdempotent(env: Env, token: Option<string>)
    ensures SetAuthToken(SetAuthToken(env, token), token) == SetAuthToken(env, token)
  {
  }

  /** An outgoing request as the interceptor sees it: its `Authorization` header
      (already merged with the client defaults) and its target. */
  datatype Request = Request(httpMethod: string, url: string, authorization: Option<string>)

  /** The request interceptor: a stored truthy token overrides the header. */
  function InterceptRequest(req: Request, storedToken: Option<string>): (r: Request)
    ensures r.httpMethod == req.httpMethod && r.url == req.url
    ensures Truthy(storedToken) ==>
      r.authorization.Some? && TokenOfHeader(r.authorization.value) == storedToken
    ensures !Truthy(storedToken) ==> r == req
  {
    BearerRoundTrip(if storedToken.Some? then storedToken.value else "");
    if Truthy(storedToken) then req.(authorization := Some(Bearer(storedToken.value))) else req
  }

  /** A request issued through the client starts from the default header. */
  function Issue(env: Env, httpMethod: string, url: string): Request
  {
    InterceptRequest(Request(httpMethod, url, env.defaultAuthorization), env.storedToken)
  }

  /** The header a request carries is the stored token's when one is stored, and
      the default header (if any) otherwise. */
  lemma IssuedAuthorization(env: Env, httpMethod: string, url: string)
    ensures Truthy(env.storedToken) ==> Issue(env, httpMethod, url).authorization == Some(Bearer(env.storedToken.value))
    ensures !Truthy(env.storedToken) ==> Issue(env, httpMethod, url).authorization == env.defaultAuthorization
  {
  }

  /** A rejected call: a response with a non-2xx status, no response at all, or a
      failure while setting the request up. `message` is `response.data.message`. */
  datatype HttpError =
    | ErrorResponse(status: int, message: Option<string>)
    | NoResponse
    | SetupError

  /** What an awaited call yields: the response body or the rejection. */
  datatype Outcome<+T> = Ok(body: T) | Err(error: HttpError)

  const Unauthorized: int := 401
  const LoginPath: string := "/login"

  /** `error.response?.data?.message` */
  function ServerMessage(e: HttpError): Option<string>
  {
    if e.ErrorResponse? then e.message else None
  }

  /** The response interceptor. Every outcome reaches the caller unchanged; a 401
      additionally removes the stored token and sends the browser to the login page. */
  function HandleResponse<T>(env: Env, outcome: Outcome<T>): (r: (Env, Outcome<T>))
    ensures r.1 == outcome
    ensures r.0.defaultAuthorization == env.defaultAuthorization
    ensures outcome.Err? && outcome.error.ErrorResponse? && outcome.error.status == Unauthorized ==>
      r.0.storedToken.None? && r.0.location == Some(LoginPath)
    ensures !(outcome.Err? && outcome.error.ErrorResponse? && outcome.error.status == Unauthorized) ==>
      r.0 == env
  {
    match outcome
    case Err(ErrorResponse(status, _)) =>
      if status == Unauthorized then (env.(storedToken := None, location := Some(LoginPath)), outcome)
      else (env, outcome)
    case _ => (env, outcome)
  }

  /** Handling a 401 twice leaves the same browser state as handling it once. */
  lemma HandleResponseIdempotent<T>(env: Env, outcome: Outcome<T>)
    ensures HandleResponse(HandleResponse(env, outcome).0, outcome) == HandleResponse(env, outcome)
  {
  }
}

=== FILE: auth.dfy ===
/** The session manager (`AuthProvider`): the in-memory session record and its
    transitions — boot verification of the stored token, login, logout, password
    reset and profile update. Backend replies, the decoded token expiry and the
    clock are parameters; browser state is `Api.Env`. */
module Auth {
  import opened Common
  import opened Api

  /** A user profile as the backend returns it. */
  datatype User = User(id: string, fullName: string, email: string, role: string)

  const AdminRole: string := "admin"

  predicate IsAdminRole(u: User)
  {
    u.role == AdminRole
  }

  /** The provider's state: `currentUser`, `isAuthenticated`, `isAdmin`,
      `isLoading` and the in-memory `token`. */
  datatype Session = Session(
    currentUser: Option<User>,
    isAuthenticated: bool,
    isAdmin: bool,
    isLoading: bool,
    token: Option<string>)

  /** The session together with the browser and client state it drives. */
  datatype App = App(session: Session, env: Env)

  /** The invariant every transition keeps: only an authenticated session is admin. */
  predicate AdminImpliesAuthenticated(s: Session)
  {
    s.isAdmin ==> s.isAuthenticated
  }

  /** A session that knows of nobody. */
  predicate Anonymous(s: Session)
  {
    s.currentUser.None? && !s.isAuthenticated && !s.isAdmin
  }

  /** Mounting the provider: loading, nobody signed in, and the in-memory token
      taken from storage (`localStorage.getItem('token') || null`). */
  function Mount(env: Env): (a: App)
    ensures a.env == env && a.session.isLoading && Anonymous(a.session)
    ensures Truthy(a.session.token) <==> Truthy(env.storedToken)
    ensures a.session.token.Some? ==> a.session.token == env.storedToken
  {
    App(Session(None, false, false, true, if Truthy(env.storedToken) then env.storedToken else None), env)
  }

  /** `logout`: forget the token everywhere, clear the user and both flags, drop
      the default header and navigate to the login page. */
  function Logout(a: App): (r: App)
    ensures Anonymous(r.session) && r.session.token.None?
    ensures r.env.storedToken.None? && r.env.defaultAuthorization.None?
    ensures r.env.location == Some(LoginPath)
    ensures r.session.isLoading == a.session.isLoading
  {
    var cleared := SetAuthToken(a.env.(storedToken := None), None);
    App(Session(None, false, false, a.session.isLoading, None), cleared.(location := Some(LoginPath)))
  }

  /** Logging out twice is logging out once. */
  lemma LogoutIdempotent(a: App)
    ensures Logout(Logout(a)) == Logout(a)
  {
  }

  /** The outcome of decoding the stored token: it may fail to decode, and its
      `exp` claim (seconds since the epoch) may be missing. */
  datatype DecodedToken = Undecodable | Claims(exp: Option<int>)

  /** `decodedToken.exp < Date.now() / 1000`; a missing `exp` never compares less. */
  predicate Expired(decoded: DecodedToken, nowMillis: int)
  {
    decoded.Claims? && decoded.exp.Some? && (decoded.exp.value as real) < (nowMillis as real) / 1000.0
  }

  /** The body of `GET /users/profile` and `PUT /users/profile`. */
  datatype ProfileBody = ProfileBody(success: bool, data: Option<User>, message: Option<string>)

  /** The profile fetch confirmed the session: `success` with user data. */
  predicate ProfileConfirmed(profile: Outcome<ProfileBody>)
  {
    profile.Ok? && profile.body.success && profile.body.data.Some?
  }

  /** `verifyToken`, the effect run at mount and whenever `token` changes.
      Without a token it only ends loading. With one it installs the default header,
      then logs out when the token does not decode, has expired, or the profile
      fetch is rejected, unsuccessful or carries no data (reading its `role` throws);
      otherwise it signs the returned user in. Loading ends on every path. */
  function VerifyToken(a: App, nowMillis: int, decoded: DecodedToken, profile: Outcome<ProfileBody>): (r: App)
    ensures !r.session.isLoading
    ensures !Truthy(a.session.token) ==> r == a.(session := a.session.(isLoading := false))
    ensures Truthy(a.session.token) && (decoded.Undecodable? || Expired(decoded, nowMillis)) ==>
      r == Logout(a).(session := Logout(a).session.(isLoading := false))
    ensures Truthy(a.session.token) && !decoded.Undecodable? && !Expired(decoded, nowMillis) ==>
      (r.session.isAuthenticated <==> ProfileConfirmed(profile))
    ensures Truthy(a.session.token) && r.session.isAuthenticated ==>
      && ProfileConfirmed(profile)
      && r.session.currentUser == profile.body.data
      && r.session.isAdmin == IsAdminRole(profile.body.data.value)
      && r.session.token == a.session.token
      && r.env.defaultAuthorization == Some(Bearer(a.session.token.value))
      && r.env.storedToken == a.env.storedToken
      && r.env.location == a.env.location
    ensures Truthy(a.session.token) && !r.session.isAuthenticated ==>
      Anonymous(r.session) && r.env.storedToken.None? && r.session.token.None?
  {
    if !Truthy(a.session.token) then a.(session := a.session.(isLoading := false))
    else
      var withHeader := a.(env := SetAuthToken(a.env, a.session.token));
      var settled :=
        if decoded.Undecodable? || Expired(decoded, nowMillis) then Logout(withHeader)
        else
          var handled := HandleResponse(withHeader.env, profile);
          var fetched := withHeader.(env := handled.0);
          if ProfileConfirmed(profile) then
            var u := profile.body.data.value;
            fetched.(session := fetched.session.(currentUser := Some(u), isAuthenticated := true, isAdmin := IsAdminRole(u)))
          else Logout(fetched);
      settled.(session := settled.session.(isLoading := false))
  }

  /** Boot from storage: mount, then run the verification once. */
  function Boot(env: Env, nowMillis: int, decoded: DecodedToken, profile: Outcome<ProfileBody>): App
  {
    VerifyToken(Mount(env), nowMillis, decoded, profile)
  }

  /** With no stored token, boot ends anonymous and no longer loading. */
  lemma BootWithoutToken(env: Env, nowMillis: int, decoded: DecodedToken, profile: Outcome<ProfileBody>)
    requires !Truthy(env.storedToken)
    ensures var r := Boot(env, nowMillis, decoded, profile);
      !r.session.isLoading && Anonymous(r.session) && r.env == env
  {
  }

  /** A stored token that has expired never yields an authenticated session:
      boot logs out and the token leaves storage. */
  lemma BootWithExpiredToken(env: Env, nowMillis: int, exp: int, profile: Outcome<ProfileBody>)
    requires Truthy(env.storedToken)
    requires (exp as real) < (nowMillis as real) / 1000.0
    ensures var r := Boot(env, nowMillis, Claims(Some(exp)), profile);
      && !r.session.isLoading && Anonymous(r.session)
      && r.env.storedToken.None? && r.env.defaultAuthorization.None?
  {
  }

  /** The body of `POST /auth/login`. */
  datatype LoginBody = LoginBody(token: Option<string>, user: Option<User>, message: Option<string>)

  /** What `login`, `resetPassword` and `updateProfile` return to the page. */
  datatype Reply = Reply(success: bool, message: Option<string>, data: Option<User>)

  const LoginFailed: string := "Login failed"
  const InvalidCredentials: string := "Invalid credentials"

  /** `login`. A response with a truthy token stores it, signs the user in with
      `isAdmin` from the role and installs the header. A token without a `user`
      record stores the token and sets `isAuthenticated` before reading
      `user.role` throws, and the caller is told "Invalid credentials". A response
      without a token, or a rejected call, changes nothing in the session. */
  function Login(a: App, response: Outcome<LoginBody>): (r: (App, Reply))
    ensures r.1.success <==> response.Ok? && Truthy(response.body.token) && response.body.user.Some?
    ensures r.1.success ==>
      var t := response.body.token.value;
      var u := response.body.user.value;
      && r.0.env.storedToken == Some(t) && r.0.session.token == Some(t)
      && r.0.session.currentUser == Some(u)
      && r.0.session.isAuthenticated && r.0.session.isAdmin == IsAdminRole(u)
      && r.0.env.defaultAuthorization == Some(Bearer(t))
      && r.0.session.isLoading == a.session.isLoading
    ensures !r.1.success ==> r.1.message.Some? && r.1.message.value != ""
    ensures response.Ok? && Truthy(response.body.token) && response.body.user.None? ==>
      && r.0.env == a.env.(storedToken := response.body.token)
      && r.0.session == a.session.(token := response.body.token, currentUser := None, isAuthenticated := true)
      && r.1.message == Some(InvalidCredentials)
    ensures response.Ok? && !Truthy(response.body.token) ==>
      r.0 == a && r.1.message == Some(OrElse(response.body.message, LoginFailed))
    ensures response.Err? ==>
      && r.0.session == a.session
      && r.0.env == HandleResponse(a.env, response).0
      && r.1.message == Some(OrElse(ServerMessage(response.error), InvalidCredentials))
  {
    match response
    case Err(e) =>
      var handled := HandleResponse(a.env, response);
      (a.(env := handled.0), Reply(false, Some(OrElse(ServerMessage(e), InvalidCredentials)), None))
    case Ok(body) =>
      if Truthy(body.token) then
        var t := body.token.value;
        var stored := a.(env := a.env.(storedToken := Some(t)), session := a.session.(token := Some(t)));
        match body.user
        case Some(u) =>
          var signedIn := stored.session.(currentUser := Some(u), isAuthenticated := true, isAdmin := IsAdminRole(u));
          (App(signedIn, SetAuthToken(stored.env, Some(t))), Reply(true, None, None))
        case None =>
          (stored.(session := stored.session.(currentUser := None, isAuthenticated := true)),
           Reply(false, Some(InvalidCredentials), None))
      else
        (a, Reply(false, Some(OrElse(body.message, LoginFailed)), None))
  }

  /** A successful `login` changes `token`, which re-runs `verifyToken`: the
      composite transition. When the token did not change the effect does not run. */
  function LoginThenVerify(
    a: App, response: Outcome<LoginBody>,
    nowMillis: int, decoded: DecodedToken, profile: Outcome<ProfileBody>): (App, Reply)
  {
    var (signedIn, reply) := Login(a, response);
    if signedIn.session.token != a.session.token then (VerifyToken(signedIn, nowMillis, decoded, profile), reply)
    else (signedIn, reply)
  }

  /** After a successful login the re-run verification either confirms the session
      with the profile's user or logs out; either way loading is over and only an
      admin profile makes the session admin. */
  lemma LoginThenVerifySettles(
    a: App, response: Outcome<LoginBody>,
    nowMillis: int, decoded: DecodedToken, profile: Outcome<ProfileBody>)
    requires Login(a, response).1.success
    requires a.session.token != response.body.token
    ensures var r := LoginThenVerify(a, response, nowMillis, decoded, profile).0;
      && !r.session.isLoading
      && (r.session.isAuthenticated ==>
            r.session.currentUser == profile.body.data && r.session.isAdmin == IsAdminRole(profile.body.data.value))
      && (!r.session.isAuthenticated ==> Anonymous(r.session) && r.env.storedToken.None?)
  {
  }

  /** The body of `POST /auth/reset-password`. */
  datatype MessageBody = MessageBody(message: Option<string>)

  const ResetFailed: string := "Failed to reset password"

  /** `resetPassword`: never touches the session. */
  function ResetPassword(a: App, response: Outcome<MessageBody>): (r: (App, Reply))
    ensures r.0.session == a.session
    ensures r.0.env == HandleResponse(a.env, response).0
    ensures r.1.success <==> response.Ok?
    ensures response.Ok? ==> r.1.message == response.body.message
    ensures response.Err? ==> r.1.message == Some(OrElse(ServerMessage(response.error), ResetFailed))
  {
    match response
    case Ok(body) => (a, Reply(true, body.message, None))
    case Err(e) => (a.(env := HandleResponse(a.env, response).0), Reply(false, Some(OrElse(ServerMessage(e), ResetFailed)), None))
  }

  const UpdateFailed: string := "Failed to update profile"

  /** `updateProfile`: on `success` the in-memory user becomes the server's copy;
      otherwise the session is left alone and a message is returned. The flags
      are never recomputed. */
  function UpdateProfile(a: App, response: Outcome<ProfileBody>): (r: (App, Reply))
    ensures r.0.session.isAuthenticated == a.session.isAuthenticated && r.0.session.isAdmin == a.session.isAdmin
    ensures r.0.session.isLoading == a.session.isLoading && r.0.session.token == a.session.token
    ensures r.1.success <==> response.Ok? && response.body.success
    ensures r.1.success ==> r.0 == a.(session := a.session.(currentUser := response.body.data)) && r.1.data == response.body.data
    ensures !r.1.success ==> r.0.session == a.session
    ensures response.Ok? && !response.body.success ==> r.1.message == response.body.message
    ensures response.Err? ==> r.1.message == Some(OrElse(ServerMessage(response.error), UpdateFailed))
  {
    match response
    case Ok(body) =>
      if body.success then (a.(session := a.session.(currentUser := body.data)), Reply(true, None, body.data))
      else (a, Reply(false, body.message, None))
    case Err(e) =>
      (a.(env := HandleResponse(a.env, response).0), Reply(false, Some(OrElse(ServerMessage(e), UpdateFailed)), None))
  }

  /** Something that can happen to a running dashboard. `ApiCall` is any other
      resource request, whose outcome only the response interceptor sees;
      `Reload` is the full page load a 401 forces. */
  datatype Event =
    | VerifyEvent(nowMillis: int, decoded: DecodedToken, profile: Outcome<ProfileBody>)
    | LoginEvent(response: Outcome<LoginBody>)
    | LogoutEvent
    | ResetEvent(reset: Outcome<MessageBody>)
    | UpdateEvent(update: Outcome<ProfileBody>)
    | ApiCall(outcome: Outcome<bool>)
    | Reload

  function Apply(a: App, e: Event): App
  {
    match e
    case VerifyEvent(now, decoded, profile) => VerifyToken(a, now, decoded, profile)
    case LoginEvent(response) => Login(a, response).0
    case LogoutEvent => Logout(a)
    case ResetEvent(response) => ResetPassword(a, response).0
    case UpdateEvent(response) => UpdateProfile(a, response).0
    case ApiCall(outcome) => a.(env := HandleResponse(a.env, outcome).0)
    case Reload => Mount(Env(a.env.storedToken, None, a.env.location))
  }

  function Run(a: App, events: seq<Event>): App
    decreases |events|
  {
    if events == [] then a else Run(Apply(a, events[0]), events[1..])
  }

  /** Every transition keeps `isAdmin ==> isAuthenticated`. */
  lemma ApplyKeepsInvariant(a: App, e: Event)
    requires AdminImpliesAuthenticated(a.session)
    ensures AdminImpliesAuthenticated(Apply(a, e).session)
  {
  }

  /** In every state reachable from mount, only an authenticated session is admin. */
  lemma {:induction false} RunKeepsInvariant(a: App, events: seq<Event>)
    requires AdminImpliesAuthenticated(a.session)
    ensures AdminImpliesAuthenticated(Run(a, events).session)
    decreases |events|
  {
    if events != [] {
      ApplyKeepsInvariant(a, events[0]);
      RunKeepsInvariant(Apply(a, events[0]), events[1..]);
    }
  }

  lemma ReachableStatesKeepInvariant(env: Env, events: seq<Event>)
    ensures AdminImpliesAuthenticated(Run(Mount(env), events).session)
  {
    RunKeepsInvariant(Mount(env), events);
  }

  /** Whatever happened before, a logout leaves an anonymous session, an empty
      store and no default header. */
  lemma {:induction false} RunEndingInLogout(a: App, events: seq<Event>)
    requires |events| > 0 && events[|events| - 1] == LogoutEvent
    ensures var r := Run(a, events);
      Anonymous(r.session) && r.env.storedToken.None? && r.env.defaultAuthorization.None?
    decreases |events|
  {
    if |events| > 1 {
      RunEndingInLogout(Apply(a, events[0]), events[1..]);
    }
  }

  /** A 401 on any call clears the store; the forced reload then boots into an
      anonymous, settled session. */
  lemma UnauthorizedThenReload(a: App, message: Option<string>, nowMillis: int, decoded: DecodedToken, profile: Outcome<ProfileBody>)
    ensures var r := Run(a, [ApiCall(Err(ErrorResponse(Unauthorized, message))), Reload, VerifyEvent(nowMillis, decoded, profile)]);
      && Anonymous(r.session) && !r.session.isLoading
      && r.env.storedToken.None? && r.env.location == Some(LoginPath)
  {
    var call := ApiCall(Err(ErrorResponse(Unauthorized, message)));
    var verify := VerifyEvent(nowMillis, decoded, profile);
    var a1 := Apply(a, call);
    var a2 := Apply(a1, Reload);
    assert Run(a2, [verify]) == Run(Apply(a2, verify), []);
    assert Run(a1, [Reload, verify]) == Run(a2, [verify]);
    assert Run(a, [call, Reload, verify]) == Run(a1, [Reload, verify]);
  }
}

=== FILE: common.dfy ===
/** Shared vocabulary: optional values and the JavaScript string behaviours
    (truthiness, `||` defaults, `trim`, `startsWith`) the dashboard relies on. */
module Common {

  /** A value that may be absent (`null` / `undefined` in the dashboard). */
  datatype Option<+T> = None | Some(value: T)

  /** JavaScript truthiness of an optional string: present and non-empty. */
  predicate Truthy(s: Option<string>)
  {
    s.Some? && s.value != ""
  }

  /** `s || fallback` for an optional string. */
  function OrElse(s: Option<string>, fallback: string): string
  {
    if Truthy(s) then s.value else fallback
  }

  /** Lifts a possibly-empty string to the `x || null` convention. */
  function NonEmpty(s: string): Option<string>
  {
    if s == "" then None else Some(s)
  }

  /** The characters `String.prototype.trim` removes: the ECMAScript
      WhiteSpace and LineTerminator code points. */
  predicate IsJsSpace(c: char)
  {
    || c == ' '
    || '\t' <= c <= '\r'                // tab, line feed, vertical tab, form feed, carriage return
    || c == '\U{A0}' || c == '\U{1680}'
    || '\U{2000}' <= c <= '\U{200A}'     // the en quad to hair space block
    || c == '\U{2028}' || c == '\U{2029}' || c == '\U{202F}' || c == '\U{205F}'
    || c == '\U{3000}' || c == '\U{FEFF}'
  }

  predicate AllSpace(s: string)
  {
    forall i :: 0 <= i < |s| ==> IsJsSpace(s[i])
  }

  /** The index of the first character at or after `i` that is not white space,
      or `|s|`. */
  function SkipSpaceForward(s: string, i: nat): (k: nat)
    requires i <= |s|
    ensures i <= k <= |s|
    ensures forall j :: i <= j < k ==> IsJsSpace(s[j])
    ensures k == |s| || !IsJsSpace(s[k])
    decreases |s| - i
  {
    if i == |s| || !IsJsSpace(s[i]) then i else SkipSpaceForward(s, i + 1)
  }

  /** The index just after the last character before `j` and at or after `lo`
      that is not white space, or `lo`. */
  function SkipSpaceBackward(s: string, lo: nat, j: nat): (k: nat)
    requires lo <= j <= |s|
    ensures lo <= k <= j
    ensures forall m :: k <= m < j ==> IsJsSpace(s[m])
    ensures k == lo || !IsJsSpace(s[k - 1])
    decreases j
  {
    if j == lo || !IsJsSpace(s[j - 1]) then j else SkipSpaceBackward(s, lo, j - 1)
  }

  /** The length of the leading white space. */
  function LeadingSpace(s: string): nat
  {
    SkipSpaceForward(s, 0)
  }

  /** `String.prototype.trim`: the longest infix with no white space at either end,
      obtained by removing only white space. */
  function Trim(s: string): (r: string)
    ensures var k := LeadingSpace(s);
      k + |r| <= |s| && r == s[k..k + |r|] && AllSpace(s[..k]) && AllSpace(s[k + |r|..])
    ensures |r| == 0 || (!IsJsSpace(r[0]) && !IsJsSpace(r[|r| - 1]))
  {
    var a := SkipSpaceForward(s, 0);
    var b := SkipSpaceBackward(s, a, |s|);
    assert AllSpace(s[b..]) by {
      forall m | 0 <= m < |s| - b ensures IsJsSpace(s[b..][m]) {
        assert s[b..][m] == s[b + m];
      }
    }
    s[a..b]
  }

  /** A string is blank after trimming exactly when it consists of white space only
      (the `!x.trim()` test of the dashboard's forms). */
  lemma TrimEmptyIffAllSpace(s: string)
    ensures Trim(s) == "" <==> AllSpace(s)
  {
    var k := LeadingSpace(s);
    if Trim(s) == "" {
      assert s == s[..k] + s[k..];
    }
  }

  /** A string with no white space at either end is its own trim. */
  lemma TrimOfUnpadded(s: string)
    requires s == "" || (!IsJsSpace(s[0]) && !IsJsSpace(s[|s| - 1]))
    ensures Trim(s) == s
  {
    if s != "" {
      assert SkipSpaceForward(s, 0) == 0;
      assert SkipSpaceBackward(s, 0, |s|) == |s|;
      assert s[0..|s|] == s;
    }
  }

  /** A non-empty trimmed string starts and ends with a character that is not white space. */
  lemma TrimEdgesOf(s: string)
    requires s != "" && Trim(s) == s
    ensures !IsJsSpace(s[0]) && !IsJsSpace(s[|s| - 1])
  {
  }

  /** The forward scan stops at the first character that is not white space. */
  lemma SkipSpaceForwardStops(s: string, i: nat, j: nat)
    requires i <= j < |s| && !IsJsSpace(s[j])
    requires forall m :: i <= m < j ==> IsJsSpace(s[m])
    ensures SkipSpaceForward(s, i) == j
  {
  }

  /** The backward scan stops after the last character that is not white space. */
  lemma SkipSpaceBackwardStops(s: string, lo: nat, j: nat, e: nat)
    requires lo < e <= j <= |s| && !IsJsSpace(s[e - 1])
    requires forall m :: e <= m < j ==> IsJsSpace(s[m])
    ensures SkipSpaceBackward(s, lo, j) == e
  {
  }

  lemma AllSpaceConcat(a: string, b: string)
    requires AllSpace(a) && AllSpace(b)
    ensures AllSpace(a + b)
  {
    assert forall i :: |a| <= i < |a + b| ==> (a + b)[i] == b[i - |a|];
  }

  /** Trimming removes exactly the white space around an unpadded string. */
  lemma TrimOfPadded(pre: string, w: string, post: string)
    requires AllSpace(pre) && AllSpace(post)
    requires w != "" && !IsJsSpace(w[0]) && !IsJsSpace(w[|w| - 1])
    ensures Trim(pre + w + post) == w
  {
    var s := pre + w + post;
    var a, b := |pre|, |pre| + |w|;
    forall m | 0 <= m < a ensures IsJsSpace(s[m]) {
      assert s[m] == pre[m];
    }
    forall m | b <= m < |s| ensures IsJsSpace(s[m]) {
      assert s[m] == post[m - b];
    }
    assert s[a] == w[0] && s[b - 1] == w[|w| - 1];
    SkipSpaceForwardStops(s, 0, a);
    SkipSpaceBackwardStops(s, a, |s|, b);
    assert s[a..b] == w;
  }

  /** A trimmed non-empty string joined by a space to white space trims back to itself. */
  lemma TrimJoinedWithBlank(w: string, pad: string)
    requires w != "" && Trim(w) == w && AllSpace(pad)
    ensures Trim(w + " " + pad) == w
    ensures Trim(pad + " " + w) == w
  {
    AllSpaceConcat(" ", pad);
    AllSpaceConcat(pad, " ");
    TrimEdgesOf(w);
    assert w + " " + pad == [] + w + (" " + pad);
    TrimOfPadded([], w, " " + pad);
    assert pad + " " + w == (pad + " ") + w + [];
    TrimOfPadded(pad + " ", w, []);
  }

  /** Trimming a trimmed string changes nothing. */
  lemma TrimIdempotent(s: string)
    ensures Trim(Trim(s)) == Trim(s)
  {
    TrimOfUnpadded(Trim(s));
  }

  /** `String.prototype.startsWith`. */
  predicate StartsWith(s: string, prefix: string)
  {
    |prefix| <= |s| && s[..|prefix|] == prefix
  }
}

=== FILE: dashboard.dfy ===
/** The dashboard's summary figures: the two best-effort fetches and the
    normalisation that fills missing figures with 0 and missing objects with the
    built-in sample figures. */
module Dashboard {
  import opened Common
  import opened Api
  import Orders

  /** The order summary as the backend may send it; any figure may be missing. */
  datatype Stats = Stats(
    totalOrders: Option<int>,
    pendingOrders: Option<int>,
    totalRevenue: Option<int>,
    totalUsers: Option<int>,
    recentOrders: Option<seq<Orders.Order>>)

  /** The order summary the cards and the recent-orders table display. */
  datatype ShownStats = ShownStats(
    totalOrders: int,
    pendingOrders: int,
    totalRevenue: int,
    totalUsers: int,
    recentOrders: seq<Orders.Order>)

  datatype PaymentStats = PaymentStats(
    totalPayments: Option<int>,
    successfulPayments: Option<int>,
    failedPayments: Option<int>,
    khaltiPayments: Option<int>,
    cashPayments: Option<int>)

  datatype ShownPaymentStats = ShownPaymentStats(
    totalPayments: int,
    successfulPayments: int,
    failedPayments: int,
    khaltiPayments: int,
    cashPayments: int)

  /** The sample order summary; its recent orders are a parameter. */
  function MockStats(mockRecent: seq<Orders.Order>): ShownStats
  {
    ShownStats(1243, 18, 342500, 825, mockRecent)
  }

  const MockPaymentStats: ShownPaymentStats := ShownPaymentStats(1150, 1095, 55, 764, 386)

  /** `value || 0` for a figure: a missing figure (or 0) reads as 0. */
  function OrZero(v: Option<int>): (r: int)
    ensures v.None? ==> r == 0
    ensures v.Some? ==> r == v.value
  {
    if v.Some? && v.value != 0 then v.value else 0
  }

  /** `displayStats`. */
  function DisplayStats(stats: Option<Stats>, mockRecent: seq<Orders.Order>): (r: ShownStats)
    ensures stats.None? ==> r == MockStats(mockRecent)
    ensures stats.Some? ==>
      r.totalOrders == OrZero(stats.value.totalOrders) && r.pendingOrders == OrZero(stats.value.pendingOrders) &&
      r.totalRevenue == OrZero(stats.value.totalRevenue) && r.totalUsers == OrZero(stats.value.totalUsers)
    ensures stats.Some? && stats.value.recentOrders.Some? ==> r.recentOrders == stats.value.recentOrders.value
    ensures stats.Some? && stats.value.recentOrders.None? ==> r.recentOrders == mockRecent
  {
    match stats
    case None => MockStats(mockRecent)
    case Some(s) =>
      ShownStats(OrZero(s.totalOrders), OrZero(s.pendingOrders), OrZero(s.totalRevenue), OrZero(s.totalUsers),
                 if s.recentOrders.Some? then s.recentOrders.value else mockRecent)
  }

  /** `displayPaymentStats`. */
  function DisplayPaymentStats(stats: Option<PaymentStats>): (r: ShownPaymentStats)
    ensures stats.None? ==> r == MockPaymentStats
    ensures stats.Some? ==>
      r.totalPayments == OrZero(stats.value.totalPayments) &&
      r.successfulPayments == OrZero(stats.value.successfulPayments) &&
      r.failedPayments == OrZero(stats.value.failedPayments) &&
      r.khaltiPayments == OrZero(stats.value.khaltiPayments) &&
      r.cashPayments == OrZero(stats.value.cashPayments)
  {
    match stats
    case None => MockPaymentStats
    case Some(s) =>
      ShownPaymentStats(OrZero(s.totalPayments), OrZero(s.successfulPayments), OrZero(s.failedPayments),
                        OrZero(s.khaltiPayments), OrZero(s.cashPayments))
  }

  /** The stats object a displayed summary corresponds to. */
  function AsStats(s: ShownStats): Stats
  {
    Stats(Some(s.totalOrders), Some(s.pendingOrders), Some(s.totalRevenue), Some(s.totalUsers), Some(s.recentOrders))
  }

  function AsPaymentStats(s: ShownPaymentStats): PaymentStats
  {
    PaymentStats(Some(s.totalPayments), Some(s.successfulPayments), Some(s.failedPayments),
                 Some(s.khaltiPayments), Some(s.cashPayments))
  }

  /** Normalisation is a fixed point: feeding a displayed summary back in shows
      it unchanged. And a present object never borrows sample figures: its missing
      counts read 0, and only a missing recent-orders list (not an empty one) falls
      back to the sample orders. */
  lemma DisplayStatsNormalises(stats: Option<Stats>, mockRecent: seq<Orders.Order>, other: seq<Orders.Order>)
    ensures DisplayStats(Some(AsStats(DisplayStats(stats, mockRecent))), other) == DisplayStats(stats, mockRecent)
    ensures stats == Some(Stats(None, None, None, None, Some([]))) ==>
      DisplayStats(stats, mockRecent) == ShownStats(0, 0, 0, 0, [])
  {
  }

  lemma DisplayPaymentStatsNormalises(stats: Option<PaymentStats>)
    ensures DisplayPaymentStats(Some(AsPaymentStats(DisplayPaymentStats(stats)))) == DisplayPaymentStats(stats)
    ensures stats == Some(PaymentStats(None, None, None, None, None)) ==>
      DisplayPaymentStats(stats) == ShownPaymentStats(0, 0, 0, 0, 0)
  {
  }

  /** The dashboard's state after its load. */
  datatype DashboardState = DashboardState(stats: Option<Stats>, paymentStats: Option<PaymentStats>, loading: bool, error: Option<string>)

  /** `fetchDashboardData`: each reply is stored only when it carries `data`; a
      failed or empty reply leaves the previous value, and neither sets the page
      error. */
  function Load(st: DashboardState, statsReply: Outcome<Option<Stats>>,
                paymentReply: Outcome<Option<PaymentStats>>): (r: DashboardState)
    ensures !r.loading && r.error.None?
    ensures statsReply.Ok? && statsReply.body.Some? ==> r.stats == statsReply.body
    ensures !(statsReply.Ok? && statsReply.body.Some?) ==> r.stats == st.stats
    ensures paymentReply.Ok? && paymentReply.body.Some? ==> r.paymentStats == paymentReply.body
    ensures !(paymentReply.Ok? && paymentReply.body.Some?) ==> r.paymentStats == st.paymentStats
  {
    var stats := if statsReply.Ok? && statsReply.body.Some? then statsReply.body else st.stats;
    var payments := if paymentReply.Ok? && paymentReply.body.Some? then paymentReply.body else st.paymentStats;
    DashboardState(stats, payments, false, None)
  }

  const InitialDashboard: DashboardState := DashboardState(None, None, true, None)

  /** Whatever both backends answer, the first load ends with figures on screen:
      the fetched ones where they arrived and the sample ones where they did not. */
  lemma FirstLoadAlwaysShowsFigures(statsReply: Outcome<Option<Stats>>,
                                    paymentReply: Outcome<Option<PaymentStats>>, mockRecent: seq<Orders.Order>)
    ensures var r := Load(InitialDashboard, statsReply, paymentReply);
      && !r.loading && r.error.None?
      && (!(statsReply.Ok? && statsReply.body.Some?) ==> DisplayStats(r.stats, mockRecent) == MockStats(mockRecent))
      && (!(paymentReply.Ok? && paymentReply.body.Some?) ==> DisplayPaymentStats(r.paymentStats) == MockPaymentStats)
      && (statsReply.Ok? && statsReply.body.Some? ==>
            DisplayStats(r.stats, mockRecent) == DisplayStats(statsReply.body, mockRecent))
      && (paymentReply.Ok? && paymentReply.body.Some? ==>
            DisplayPaymentStats(r.paymentStats) == DisplayPaymentStats(paymentReply.body))
  {
  }
}

=== FILE: format.dfy ===
/** Display normalisers shared by the list and detail pages: status labels,
    payment-method names and customer names. */
module Format {
  import opened Common

  /** `\w` of a JavaScript regular expression without the `u` flag. */
  predicate IsWordChar(c: char)
  {
    ('a' <= c <= 'z') || ('A' <= c <= 'Z') || ('0' <= c <= '9') || c == '_'
  }

  /** `toUpperCase` restricted to the characters `\w` can match. */
  function UpperWordChar(c: char): char
  {
    if 'a' <= c <= 'z' then (c as int - 32) as char else c
  }

  /** `s.replace(/_/g, ' ')`. */
  function UnderscoresToSpaces(s: string): (r: string)
    ensures |r| == |s|
    ensures forall i :: 0 <= i < |s| ==> r[i] == (if s[i] == '_' then ' ' else s[i])
  {
    if s == [] then []
    else [if s[0] == '_' then ' ' else s[0]] + UnderscoresToSpaces(s[1..])
  }

  /** Position `i` of `s` is matched by `\b\w`: a word character not preceded by one. */
  predicate WordStart(s: string, i: int)
    requires 0 <= i < |s|
  {
    IsWordChar(s[i]) && (i == 0 || !IsWordChar(s[i - 1]))
  }

  /** `s.replace(/\b\w/g, l => l.toUpperCase())`, scanning left to right;
      `afterWord` records whether the character before `s` was a word character. */
  function CapitalizeFrom(s: string, afterWord: bool): (r: string)
    ensures |r| == |s|
  {
    if s == [] then []
    else
      var head := if IsWordChar(s[0]) && !afterWord then UpperWordChar(s[0]) else s[0];
      [head] + CapitalizeFrom(s[1..], IsWordChar(s[0]))
  }

  /** Exactly the characters at a word start are upper-cased. */
  lemma {:induction false} CapitalizeFromSpec(s: string, afterWord: bool)
    ensures var r := CapitalizeFrom(s, afterWord);
      && (|s| > 0 ==> r[0] == (if IsWordChar(s[0]) && !afterWord then UpperWordChar(s[0]) else s[0]))
      && (forall i :: 0 < i < |s| ==> r[i] == (if WordStart(s, i) then UpperWordChar(s[i]) else s[i]))
  {
    if s != [] {
      CapitalizeFromSpec(s[1..], IsWordChar(s[0]));
      assert forall i :: 1 < i < |s| ==> WordStart(s, i) == WordStart(s[1..], i - 1);
    }
  }

  /** `formatStatus` of the list pages: snake_case to Title Case. */
  function FormatStatus(status: string): string
  {
    CapitalizeFrom(UnderscoresToSpaces(status), false)
  }

  /** Every underscore becomes a space and exactly the word-initial characters are
      upper-cased; the length is kept. */
  lemma FormatStatusSpec(status: string)
    ensures var spaced := UnderscoresToSpaces(status);
      var r := FormatStatus(status);
      && |r| == |status|
      && (forall i :: 0 <= i < |r| ==> r[i] != '_')
      && (forall i :: 0 <= i < |r| ==>
            r[i] == (if WordStart(spaced, i) then UpperWordChar(spaced[i]) else spaced[i]))
  {
    CapitalizeFromSpec(UnderscoresToSpaces(status), false);
  }

  /** Formatting an already formatted status changes nothing. */
  lemma FormatStatusIdempotent(status: string)
    ensures FormatStatus(FormatStatus(status)) == FormatStatus(status)
  {
    var r := FormatStatus(status);
    var spaced := UnderscoresToSpaces(status);
    FormatStatusSpec(status);
    var respaced := UnderscoresToSpaces(r);
    assert respaced == r;
    CapitalizeFromSpec(r, false);
    assert forall i :: 0 <= i < |r| ==> IsWordChar(r[i]) == IsWordChar(spaced[i]);
    assert forall i :: 0 <= i < |r| ==> WordStart(r, i) == WordStart(spaced, i);
  }

  /** Capitalising a concatenation capitalises each part, the second one knowing
      whether the first ended in a word character. */
  lemma {:induction false} CapitalizeFromConcat(a: string, b: string, afterWord: bool)
    ensures CapitalizeFrom(a + b, afterWord) ==
      CapitalizeFrom(a, afterWord) + CapitalizeFrom(b, if a == [] then afterWord else IsWordChar(a[|a| - 1]))
  {
    if a == [] {
      assert a + b == b;
    } else {
      assert (a + b)[1..] == a[1..] + b;
      CapitalizeFromConcat(a[1..], b, IsWordChar(a[0]));
    }
  }

  /** Inside a word nothing is capitalised. */
  lemma {:induction false} CapitalizeInsideWord(s: string)
    requires forall i :: 0 <= i < |s| ==> IsWordChar(s[i])
    ensures CapitalizeFrom(s, true) == s
  {
    if s != [] {
      CapitalizeInsideWord(s[1..]);
      assert s == [s[0]] + s[1..];
    }
  }

  /** A non-empty run of lower-case letters, as in the backend's status codes. */
  predicate LowerWord(w: string)
  {
    w != [] && forall i :: 0 <= i < |w| ==> 'a' <= w[i] <= 'z'
  }

  /** The word with its first letter upper-cased. */
  function TitleWord(w: string): string
    requires w != []
  {
    [UpperWordChar(w[0])] + w[1..]
  }

  /** Each word in Title Case. */
  function TitleWords(words: seq<string>): (r: seq<string>)
    requires forall k :: 0 <= k < |words| ==> LowerWord(words[k])
    ensures |r| == |words|
  {
    if words == [] then []
    else
      assert LowerWord(words[0]);
      [TitleWord(words[0])] + TitleWords(words[1..])
  }

  /** The words of a status code, joined by `sep`. */
  function Join(words: seq<string>, sep: string): string
    requires words != []
  {
    if |words| == 1 then words[0] else words[0] + (sep + Join(words[1..], sep))
  }

  /** A lower-case word is capitalised at a word start and nowhere else. */
  lemma CapitalizeLowerWord(w: string)
    requires LowerWord(w)
    ensures CapitalizeFrom(w, false) == TitleWord(w)
  {
    CapitalizeInsideWord(w[1..]);
  }

  /** A lower-case word followed by a space and more text. */
  lemma CapitalizeWordThenSpace(w: string, t: string)
    requires LowerWord(w)
    ensures CapitalizeFrom(w + (" " + t), false) == TitleWord(w) + (" " + CapitalizeFrom(t, false))
  {
    CapitalizeLowerWord(w);
    CapitalizeFromConcat(w, " " + t, false);
    CapitalizeFromConcat(" ", t, true);
  }

  /** Replacing underscores works piecewise. */
  lemma UnderscoresToSpacesConcat(a: string, b: string)
    ensures UnderscoresToSpaces(a + b) == UnderscoresToSpaces(a) + UnderscoresToSpaces(b)
  {
  }

  /** A lower-case word followed by an underscore and more text. */
  lemma UnderscoresAfterWord(w: string, t: string)
    requires LowerWord(w)
    ensures UnderscoresToSpaces(w) == w
    ensures UnderscoresToSpaces(w + ("_" + t)) == w + (" " + UnderscoresToSpaces(t))
  {
    assert UnderscoresToSpaces(w) == w;
    UnderscoresToSpacesConcat(w, "_" + t);
    UnderscoresToSpacesConcat("_", t);
    assert UnderscoresToSpaces("_") == " ";
  }

  /** A snake_case status made of lower-case words reads as those words in
      Title Case, separated by single spaces. */
  lemma {:induction false} FormatStatusOfSnakeCase(words: seq<string>)
    requires words != [] && forall k :: 0 <= k < |words| ==> LowerWord(words[k])
    ensures FormatStatus(Join(words, "_")) == Join(TitleWords(words), " ")
  {
    var w := words[0];
    UnderscoresAfterWord(w, "");
    if |words| == 1 {
      CapitalizeLowerWord(w);
    } else {
      var rest := Join(words[1..], "_");
      FormatStatusOfSnakeCase(words[1..]);
      UnderscoresAfterWord(w, rest);
      CapitalizeWordThenSpace(w, UnderscoresToSpaces(rest));
    }
  }

  /** The words of the status code `out_for_delivery` are lower-case. */
  lemma ExampleLower(words: seq<string>)
    requires words == ["out", "for", "delivery"]
    ensures words != [] && forall k :: 0 <= k < |words| ==> LowerWord(words[k])
  {
    assert LowerWord("out");
    assert LowerWord("for");
    assert LowerWord("delivery");
  }

  /** Three words joined: each separator sits between two neighbours. */
  lemma {:induction false} JoinOfThree(words: seq<string>, sep: string)
    requires |words| == 3
    ensures Join(words, sep) == words[0] + (sep + (words[1] + (sep + words[2])))
  {
    var rest := words[1..];
    assert rest[0] == words[1] && rest[1..] == [words[2]];
    assert Join(rest[1..], sep) == words[2];
    assert Join(rest, sep) == words[1] + (sep + words[2]);
  }

  /** The status code `out_for_delivery` as its words. */
  lemma ExampleWords(words: seq<string>, status: string)
    requires words == ["out", "for", "delivery"] && status == "out_for_delivery"
    ensures Join(words, "_") == status
  {
    JoinOfThree(words, "_");
    assert "out" + ("_" + ("for" + ("_" + "delivery"))) == status;
  }

  /** The same words in Title Case. */
  lemma ExampleTitleWords(words: seq<string>, titled: seq<string>)
    requires words == ["out", "for", "delivery"] && titled == ["Out", "For", "Delivery"]
    ensures TitleWords(words) == titled
  {
    assert words[1..] == ["for", "delivery"] && words[2..] == ["delivery"];
    assert TitleWord("out") == "Out" && TitleWord("for") == "For" && TitleWord("delivery") == "Delivery";
    assert TitleWords(words[2..]) == ["Delivery"];
    assert TitleWords(words[1..]) == ["For", "Delivery"];
  }

  lemma FormatStatusExample(status: string)
    requires status == "out_for_delivery"
    ensures FormatStatus(status) == "Out For Delivery"
  {
    var words := ["out", "for", "delivery"];
    ExampleLower(words);
    ExampleWords(words, status);
    FormatStatusOfSnakeCase(words);
    ExampleTitleWords(words, ["Out", "For", "Delivery"]);
    JoinOfThree(["Out", "For", "Delivery"], " ");
  }

  /** `formatStatus` of the detail pages: an absent or empty status reads "Unknown". */
  function FormatStatusOrUnknown(status: Option<string>): (r: string)
    ensures !Truthy(status) ==> r == "Unknown"
    ensures Truthy(status) ==> |r| == |status.value| && r == FormatStatus(status.value)
  {
    if Truthy(status) then FormatStatus(status.value) else "Unknown"
  }

  /** `formatPaymentMethod` of the Payments list. */
  function FormatPaymentMethod(methodName: string): (r: string)
    ensures methodName == "khalti" ==> r == "Khalti"
    ensures methodName == "cash_on_delivery" ==> r == "Cash on Delivery"
    ensures methodName !in {"khalti", "cash_on_delivery"} ==> r == methodName
  {
    if methodName == "khalti" then "Khalti"
    else if methodName == "cash_on_delivery" then "Cash on Delivery"
    else methodName
  }

  /** The two known gateway codes get display names; every other value passes
      through, so formatting a display name again is the identity. */
  lemma FormatPaymentMethodSpec(methodName: string)
    ensures var r := FormatPaymentMethod(methodName);
      && (methodName in {"khalti", "cash_on_delivery"} <==> r != methodName)
      && FormatPaymentMethod(r) == r
  {
  }

  /** `formatPaymentMethod` of the payment detail page: "Unknown" when absent. */
  function FormatPaymentMethodOrUnknown(methodName: Option<string>): (r: string)
    ensures !Truthy(methodName) ==> r == "Unknown"
    ensures Truthy(methodName) ==> r == FormatPaymentMethod(methodName.value)
  {
    if Truthy(methodName) then FormatPaymentMethod(methodName.value) else "Unknown"
  }

  /** The name fields of a user record as the payment detail page reads them. */
  datatype Person = Person(fullName: Option<string>, firstName: Option<string>, lastName: Option<string>)

  /** `formatCustomerName`. */
  function FormatCustomerName(user: Option<Person>): (r: string)
    ensures r != ""
    ensures user.None? ==> r == "N/A"
    ensures user.Some? && Truthy(user.value.fullName) ==> r == user.value.fullName.value
    ensures user.Some? && !Truthy(user.value.fullName) ==>
      var joined := Trim(OrElse(user.value.firstName, "") + " " + OrElse(user.value.lastName, ""));
      r == (if joined == "" then "N/A" else joined)
  {
    match user
    case None => "N/A"
    case Some(p) =>
      if Truthy(p.fullName) then p.fullName.value
      else
        var joined := Trim(OrElse(p.firstName, "") + " " + OrElse(p.lastName, ""));
        if joined == "" then "N/A" else joined
  }

  /** Without a full name, first and last name are joined by one space and trimmed:
      when they are trimmed non-empty words the result is exactly "first last". */
  lemma FormatCustomerNameJoin(first: string, last: string)
    requires first != "" && last != "" && Trim(first) == first && Trim(last) == last
    ensures FormatCustomerName(Some(Person(None, Some(first), Some(last)))) == first + " " + last
  {
    var joined := first + " " + last;
    assert joined[0] == first[0];
    assert joined[|joined| - 1] == last[|last| - 1];
    TrimOfUnpadded(joined);
  }

  /** Without a full name, a single trimmed name, given alone or next to a blank
      one, is shown as it is. */
  lemma FormatCustomerNameSingle(name: string, blank: Option<string>)
    requires name != "" && Trim(name) == name
    requires blank.None? || AllSpace(blank.value)
    ensures FormatCustomerName(Some(Person(None, Some(name), blank))) == name
    ensures FormatCustomerName(Some(Person(None, blank, Some(name)))) == name
  {
    var pad := OrElse(blank, "");
    assert AllSpace(pad);
    TrimJoinedWithBlank(name, pad);
  }

  /** Without a full name and with blank first and last names the result is "N/A". */
  lemma FormatCustomerNameBlank(first: string, last: string)
    requires AllSpace(first) && AllSpace(last)
    ensures FormatCustomerName(Some(Person(None, Some(first), Some(last)))) == "N/A"
  {
    var joined := first + " " + last;
    assert AllSpace(joined) by {
      forall i | 0 <= i < |joined| ensures IsJsSpace(joined[i]) {
        if i < |first| {
          assert joined[i] == first[i];
        } else if i > |first| {
          assert joined[i] == last[i - |first| - 1];
        }
      }
    }
    TrimEmptyIffAllSpace(joined);
  }
}

=== FILE: list_view.dfy ===
/** Helpers the Orders, Users and Payments list pages each define for themselves:
    page stepping, the sortable-column toggle, query-filter construction, the
    page reset on a new filter, and the real-or-mock fallback. */
module ListView {
  import opened Common

  /** `Math.max(prevPage - 1, 1)` */
  function PreviousPage(page: int): int
  {
    if page - 1 > 1 then page - 1 else 1
  }

  /** `Math.min(prevPage + 1, totalPages)` */
  function NextPage(page: int, totalPages: int): int
  {
    if page + 1 < totalPages then page + 1 else totalPages
  }

  /** `response.totalPages || 1`: a missing or zero page count reads as one page. */
  function TotalPagesOf(reported: Option<int>): (r: int)
    ensures reported.None? || reported.value == 0 ==> r == 1
    ensures reported.Some? && reported.value != 0 ==> r == reported.value
  {
    if reported.Some? && reported.value != 0 then reported.value else 1
  }

  /** Stepping back never leaves page 1 behind and stops there; stepping forward
      never passes the last page. From a page in range both stay in range, and
      each step undoes the other away from the ends. */
  lemma PageSteps(page: int, totalPages: int)
    ensures PreviousPage(page) >= 1 && PreviousPage(1) == 1
    ensures NextPage(page, totalPages) <= totalPages
    ensures page > 1 ==> PreviousPage(page) == page - 1
    ensures page + 1 <= totalPages ==> NextPage(page, totalPages) == page + 1
    ensures 1 <= page <= totalPages ==>
      1 <= PreviousPage(page) <= totalPages && 1 <= NextPage(page, totalPages) <= totalPages
    ensures 1 < page <= totalPages ==> NextPage(PreviousPage(page), totalPages) == page
    ensures 1 <= page < totalPages ==> PreviousPage(NextPage(page, totalPages)) == page
  {
  }

  /** The sortable columns of the Orders table. */
  datatype Column = IdColumn | CustomerColumn | DateColumn | AmountColumn | StatusColumn

  datatype Direction = Asc | Desc

  datatype SortState = SortState(column: Column, direction: Direction)

  /** `handleSort`: the current column flips its direction, another column starts ascending. */
  function HandleSort(s: SortState, column: Column): (r: SortState)
    ensures r.column == column
    ensures column == s.column ==> r.direction != s.direction
    ensures column != s.column ==> r.direction == Asc
  {
    if s.column == column then s.(direction := if s.direction == Asc then Desc else Asc)
    else SortState(column, Asc)
  }

  /** Clicking the same header twice restores the sort state. */
  lemma HandleSortTwice(s: SortState, column: Column)
    ensures column == s.column ==> HandleSort(HandleSort(s, column), column) == s
    ensures column != s.column ==> HandleSort(HandleSort(s, column), column) == SortState(column, Desc)
  {
  }

  /** The query filters a list page sends; `timestamp` is the cache-buster only the
      Orders page adds. */
  datatype QueryFilters = QueryFilters(status: Option<string>, search: Option<string>, timestamp: Option<int>)

  /** Filter construction of the Payments page: a field is sent only when set. */
  function ListFilters(filterStatus: string, searchTerm: string): (f: QueryFilters)
    ensures f.status.Some? <==> filterStatus != ""
    ensures f.search.Some? <==> searchTerm != ""
    ensures f.timestamp.None?
  {
    QueryFilters(NonEmpty(filterStatus), NonEmpty(searchTerm), None)
  }

  /** Filter construction of the Orders page: the same, plus the current time. */
  function OrderFilters(filterStatus: string, searchTerm: string, nowMillis: int): (f: QueryFilters)
    ensures f.status.Some? <==> filterStatus != ""
    ensures f.search.Some? <==> searchTerm != ""
    ensures f.timestamp == Some(nowMillis)
  {
    ListFilters(filterStatus, searchTerm).(timestamp := Some(nowMillis))
  }

  /** What the backend reads for an optional filter: absent means "". */
  function FilterValue(field: Option<string>): string
  {
    if field.Some? then field.value else ""
  }

  /** No filter is lost or invented: reading the sent filters back gives the
      page's inputs. */
  lemma FiltersRoundTrip(filterStatus: string, searchTerm: string, nowMillis: int)
    ensures FilterValue(ListFilters(filterStatus, searchTerm).status) == filterStatus
    ensures FilterValue(ListFilters(filterStatus, searchTerm).search) == searchTerm
    ensures FilterValue(OrderFilters(filterStatus, searchTerm, nowMillis).status) == filterStatus
    ensures FilterValue(OrderFilters(filterStatus, searchTerm, nowMillis).search) == searchTerm
  {
  }

  /** The paging and filter state of a list page. */
  datatype ListState = ListState(currentPage: int, filterStatus: string, searchTerm: string)

  /** `handleFilterChange`: the new status filter applies from page 1. */
  function HandleFilterChange(s: ListState, value: string): (r: ListState)
    ensures r.currentPage == 1 && r.filterStatus == value && r.searchTerm == s.searchTerm
  {
    s.(filterStatus := value, currentPage := 1)
  }

  /** What a search submission does: the new state and the pages fetched, in
      the order they are requested. */
  datatype SearchResult = SearchResult(state: ListState, requestedPages: seq<int>)

  /** `handleSearch`: the page goes back to 1, but the direct `fetch…()` call still
      sees the page from before the reset; the effect on `currentPage` then fetches
      page 1 again when the page actually changed. */
  function HandleSearch(s: ListState): (r: SearchResult)
    ensures r.state.currentPage == 1 && r.state.filterStatus == s.filterStatus && r.state.searchTerm == s.searchTerm
    ensures |r.requestedPages| > 0 && r.requestedPages[0] == s.currentPage
    ensures r.requestedPages[|r.requestedPages| - 1] == 1
    ensures |r.requestedPages| == 1 <==> s.currentPage == 1
  {
    var next := s.(currentPage := 1);
    SearchResult(next, if s.currentPage == 1 then [1] else [s.currentPage, 1])
  }

  /** The last filter choice wins, and a search right after a filter change asks
      only for page 1. */
  lemma FilterThenSearch(s: ListState, first: string, second: string)
    ensures HandleFilterChange(HandleFilterChange(s, first), second) == HandleFilterChange(s, second)
    ensures var f := HandleFilterChange(s, second);
      HandleSearch(f).state == f && HandleSearch(f).requestedPages == [1]
  {
  }

  /** `fetched.length > 0 ? fetched : mock` */
  function RealOrMock<T>(fetched: seq<T>, mock: seq<T>): (r: seq<T>)
    ensures |fetched| > 0 ==> r == fetched
    ensures |fetched| == 0 ==> r == mock
    ensures |mock| > 0 ==> |r| > 0
  {
    if |fetched| > 0 then fetched else mock
  }
}

=== FILE: orders.dfy ===
/** The Orders page's client-side list logic: the local status update after a
    successful request, the date-range filter, the column sort and the item count. */
module Orders {
  import opened Common
  import TextOrder
  import opened ListView
  import Format

  datatype OrderUser = OrderUser(fullName: Option<string>)

  /** One line of an order; `quantity` is absent, or falsy, when not given. */
  datatype OrderItem = OrderItem(quantity: Option<int>)

  /** An order as the admin list receives it; `createdAt` is a timestamp. */
  datatype Order = Order(
    id: string,
    user: Option<OrderUser>,
    createdAt: int,
    totalAmount: real,
    status: string,
    items: Option<seq<OrderItem>>)

  // ---------------------------------------------------------------------------
  // Status update

  /** `prevOrders.map(order => order._id === orderId ? { ...order, status } : order)` */
  function SetStatus(orders: seq<Order>, orderId: string, newStatus: string): (r: seq<Order>)
    ensures |r| == |orders|
    ensures forall i :: 0 <= i < |orders| && orders[i].id == orderId ==> r[i] == orders[i].(status := newStatus)
    ensures forall i :: 0 <= i < |orders| && orders[i].id != orderId ==> r[i] == orders[i]
  {
    if orders == [] then []
    else
      var head := if orders[0].id == orderId then orders[0].(status := newStatus) else orders[0];
      [head] + SetStatus(orders[1..], orderId, newStatus)
  }

  /** `handleStatusUpdate`: the local list changes only when the backend reports success. */
  function HandleStatusUpdate(orders: seq<Order>, orderId: string, newStatus: string, success: bool): (r: seq<Order>)
    ensures !success ==> r == orders
    ensures success ==> r == SetStatus(orders, orderId, newStatus)
  {
    if success then SetStatus(orders, orderId, newStatus) else orders
  }

  /** Updating the same order to the same status again changes nothing, and the
      order identifiers are untouched. */
  lemma SetStatusIdempotent(orders: seq<Order>, orderId: string, newStatus: string)
    ensures SetStatus(SetStatus(orders, orderId, newStatus), orderId, newStatus) == SetStatus(orders, orderId, newStatus)
    ensures forall i :: 0 <= i < |orders| ==> SetStatus(orders, orderId, newStatus)[i].id == orders[i].id
  {
  }

  // ---------------------------------------------------------------------------
  // Date-range filter

  /** The two date inputs; an empty input is absent. */
  datatype DateRange = DateRange(from: Option<int>, to: Option<int>)

  predicate InRange(o: Order, from: int, to: int)
  {
    from <= o.createdAt <= to
  }

  function KeepInRange(orders: seq<Order>, from: int, to: int): (r: seq<Order>)
    ensures |r| <= |orders|
    ensures forall o :: o in r <==> o in orders && InRange(o, from, to)
  {
    if orders == [] then []
    else (if InRange(orders[0], from, to) then [orders[0]] else []) + KeepInRange(orders[1..], from, to)
  }

  /** The filter applies only when both ends are set. */
  function FilterByDate(orders: seq<Order>, range: DateRange): (r: seq<Order>)
    ensures range.from.None? || range.to.None? ==> r == orders
    ensures range.from.Some? && range.to.Some? ==>
      forall o :: o in r <==> o in orders && InRange(o, range.from.value, range.to.value)
  {
    if range.from.Some? && range.to.Some? then KeepInRange(orders, range.from.value, range.to.value)
    else orders
  }

  /** The kept orders appear in their original order: filtering distributes over
      concatenation. */
  lemma {:induction false} KeepInRangeConcat(a: seq<Order>, b: seq<Order>, from: int, to: int)
    ensures KeepInRange(a + b, from, to) == KeepInRange(a, from, to) + KeepInRange(b, from, to)
  {
    if a != [] {
      assert (a + b)[0] == a[0];
      assert (a + b)[1..] == a[1..] + b;
      KeepInRangeConcat(a[1..], b, from, to);
    } else {
      assert a + b == b;
    }
  }

  /** Filtering twice is filtering once. */
  lemma {:induction false} KeepInRangeIdempotent(orders: seq<Order>, from: int, to: int)
    ensures KeepInRange(KeepInRange(orders, from, to), from, to) == KeepInRange(orders, from, to)
  {
    if orders != [] {
      var head := if InRange(orders[0], from, to) then [orders[0]] else [];
      var rest := KeepInRange(orders[1..], from, to);
      KeepInRangeConcat(head, rest, from, to);
      KeepInRangeIdempotent(orders[1..], from, to);
      if head != [] {
        assert KeepInRange(head, from, to) == head + KeepInRange(head[1..], from, to);
      }
    }
  }

  // ---------------------------------------------------------------------------
  // Sorting

  /** `a.user?.fullName || ''` */
  function CustomerName(o: Order): string
  {
    if o.user.Some? && o.user.value.fullName.Some? then o.user.value.fullName.value else ""
  }

  /** `aValue < bValue` for the selected column. */
  predicate KeyLess(column: Column, a: Order, b: Order)
  {
    match column
    case IdColumn => TextOrder.Less(a.id, b.id)
    case CustomerColumn => TextOrder.Less(CustomerName(a), CustomerName(b))
    case DateColumn => a.createdAt < b.createdAt
    case AmountColumn => a.totalAmount < b.totalAmount
    case StatusColumn => TextOrder.Less(a.status, b.status)
  }

  /** The comparator handed to `Array.prototype.sort`. */
  function Compare(s: SortState, a: Order, b: Order): int
  {
    if KeyLess(s.column, a, b) then (if s.direction == Asc then -1 else 1)
    else if KeyLess(s.column, b, a) then (if s.direction == Asc then 1 else -1)
    else 0
  }

  lemma KeyLessAsymmetric(column: Column, a: Order, b: Order)
    ensures KeyLess(column, a, b) ==> !KeyLess(column, b, a)
  {
    match column
    case IdColumn => TextOrder.LessAsymmetric(a.id, b.id);
    case CustomerColumn => TextOrder.LessAsymmetric(CustomerName(a), CustomerName(b));
    case StatusColumn => TextOrder.LessAsymmetric(a.status, b.status);
    case _ =>
  }

  lemma KeyLessNegativelyTransitive(column: Column, a: Order, b: Order, c: Order)
    ensures KeyLess(column, a, c) ==> KeyLess(column, a, b) || KeyLess(column, b, c)
  {
    match column
    case IdColumn => TextOrder.LessNegativelyTransitive(a.id, b.id, c.id);
    case CustomerColumn => TextOrder.LessNegativelyTransitive(CustomerName(a), CustomerName(b), CustomerName(c));
    case StatusColumn => TextOrder.LessNegativelyTransitive(a.status, b.status, c.status);
    case _ =>
  }

  /** The comparator is antisymmetric... */
  lemma CompareFlip(s: SortState, a: Order, b: Order)
    ensures Compare(s, a, b) == -Compare(s, b, a)
  {
    KeyLessAsymmetric(s.column, a, b);
    KeyLessAsymmetric(s.column, b, a);
  }

  /** ... and "compares at most equal" is transitive, so the comparator is
      consistent in the sense `Array.prototype.sort` requires. */
  lemma CompareTransitive(s: SortState, a: Order, b: Order, c: Order)
    requires Compare(s, a, b) <= 0 && Compare(s, b, c) <= 0
    ensures Compare(s, a, c) <= 0
  {
    KeyLessAsymmetric(s.column, a, b);
    KeyLessAsymmetric(s.column, b, c);
    KeyLessAsymmetric(s.column, a, c);
    KeyLessNegativelyTransitive(s.column, c, b, a);
    KeyLessNegativelyTransitive(s.column, a, b, c);
  }

  /** Every earlier order compares at most equal to every later one. */
  ghost predicate SortedBy(s: SortState, orders: seq<Order>)
  {
    forall i, j :: 0 <= i < j < |orders| ==> Compare(s, orders[i], orders[j]) <= 0
  }

  ghost predicate AtMostAll(s: SortState, y: Order, orders: seq<Order>)
  {
    forall z :: z in orders ==> Compare(s, y, z) <= 0
  }

  lemma SortedCons(s: SortState, y: Order, t: seq<Order>)
    ensures SortedBy(s, [y] + t) <==> AtMostAll(s, y, t) && SortedBy(s, t)
  {
    var r := [y] + t;
    if AtMostAll(s, y, t) && SortedBy(s, t) {
      forall i, j | 0 <= i < j < |r| ensures Compare(s, r[i], r[j]) <= 0 {
        assert r[j] == t[j - 1];
        if i > 0 {
          assert r[i] == t[i - 1];
        }
      }
    }
    if SortedBy(s, r) {
      forall z | z in t ensures Compare(s, y, z) <= 0 {
        var j :| 0 <= j < |t| && t[j] == z;
        assert r[0] == y && r[j + 1] == z;
        assert Compare(s, r[0], r[j + 1]) <= 0;
      }
      forall i, j | 0 <= i < j < |t| ensures Compare(s, t[i], t[j]) <= 0 {
        assert r[i + 1] == t[i] && r[j + 1] == t[j];
      }
    }
  }

  /** Puts `x` before the first order that does not compare below it, so ties keep
      `x` in front (a stable insertion). */
  function Insert(s: SortState, x: Order, sorted: seq<Order>): (r: seq<Order>)
    ensures multiset(r) == multiset(sorted) + multiset{x}
  {
    if sorted == [] then [x]
    else if Compare(s, sorted[0], x) < 0 then
      assert sorted == [sorted[0]] + sorted[1..];
      [sorted[0]] + Insert(s, x, sorted[1..])
    else [x] + sorted
  }

  lemma AtMostAllInsert(s: SortState, y: Order, x: Order, t: seq<Order>)
    requires AtMostAll(s, y, t) && Compare(s, y, x) <= 0
    ensures AtMostAll(s, y, Insert(s, x, t))
  {
    forall z | z in Insert(s, x, t) ensures Compare(s, y, z) <= 0 {
      assert z in multiset(Insert(s, x, t));
      assert z == x || z in multiset(t);
    }
  }

  lemma {:induction false} InsertSorted(s: SortState, x: Order, sorted: seq<Order>)
    requires SortedBy(s, sorted)
    ensures SortedBy(s, Insert(s, x, sorted))
  {
    if sorted == [] {
    } else {
      var h, t := sorted[0], sorted[1..];
      assert sorted == [h] + t;
      SortedCons(s, h, t);
      if Compare(s, h, x) < 0 {
        InsertSorted(s, x, t);
        AtMostAllInsert(s, h, x, t);
        SortedCons(s, h, Insert(s, x, t));
      } else {
        CompareFlip(s, h, x);
        forall z | z in sorted ensures Compare(s, x, z) <= 0 {
          if z != h {
            CompareTransitive(s, x, h, z);
          }
        }
        SortedCons(s, x, sorted);
      }
    }
  }

  /** `filteredOrders.sort(comparator)`, as a stable insertion sort. */
  function SortOrders(s: SortState, orders: seq<Order>): (r: seq<Order>)
    ensures multiset(r) == multiset(orders)
  {
    if orders == [] then []
    else
      assert orders == [orders[0]] + orders[1..];
      Insert(s, orders[0], SortOrders(s, orders[1..]))
  }

  /** The sorted list is a permutation of its input, ordered by the comparator:
      ascending keys for "asc", descending keys for "desc". */
  lemma {:induction false} SortOrdersSorted(s: SortState, orders: seq<Order>)
    ensures SortedBy(s, SortOrders(s, orders))
    ensures multiset(SortOrders(s, orders)) == multiset(orders)
  {
    if orders != [] {
      SortOrdersSorted(s, orders[1..]);
      InsertSorted(s, orders[0], SortOrders(s, orders[1..]));
    }
  }

  /** The orders of `xs` that tie with `x` under the comparator, in their order in `xs`. */
  function Ties(s: SortState, x: Order, xs: seq<Order>): (r: seq<Order>)
    ensures forall k :: 0 <= k < |r| ==> Compare(s, x, r[k]) == 0
  {
    if xs == [] then []
    else (if Compare(s, x, xs[0]) == 0 then [xs[0]] else []) + Ties(s, x, xs[1..])
  }

  /** Ties form classes: two orders tied with a third are tied with each other. */
  lemma TieTransitive(s: SortState, a: Order, b: Order, c: Order)
    requires Compare(s, a, b) == 0 && Compare(s, a, c) == 0
    ensures Compare(s, b, c) == 0
  {
    CompareFlip(s, a, b);
    CompareFlip(s, a, c);
    CompareTransitive(s, b, a, c);
    CompareTransitive(s, c, a, b);
    CompareFlip(s, b, c);
  }

  /** `x`'s tie class within a list that starts with `h`. */
  lemma TiesCons(s: SortState, x: Order, h: Order, t: seq<Order>)
    ensures Ties(s, x, [h] + t) == (if Compare(s, x, h) == 0 then [h] else []) + Ties(s, x, t)
  {
    assert ([h] + t)[0] == h && ([h] + t)[1..] == t;
  }

  /** Inserting `y` adds it to its tie class in front of the members already there. */
  lemma {:induction false} InsertTies(s: SortState, x: Order, y: Order, sorted: seq<Order>)
    ensures Ties(s, x, Insert(s, y, sorted)) ==
      (if Compare(s, x, y) == 0 then [y] else []) + Ties(s, x, sorted)
  {
    if sorted == [] {
      TiesCons(s, x, y, []);
    } else if Compare(s, sorted[0], y) < 0 {
      var h, t := sorted[0], sorted[1..];
      assert sorted == [h] + t;
      InsertTies(s, x, y, t);
      TiesCons(s, x, h, Insert(s, y, t));
      TiesCons(s, x, h, t);
      if Compare(s, x, h) == 0 && Compare(s, x, y) == 0 {
        TieTransitive(s, x, h, y);
        assert false;
      }
    } else {
      TiesCons(s, x, y, sorted);
    }
  }

  /** The sort is stable: within every tie class the sorted list keeps the input
      order, so "desc" is not simply the reverse of "asc". */
  lemma {:induction false} SortOrdersStable(s: SortState, x: Order, orders: seq<Order>)
    ensures Ties(s, x, SortOrders(s, orders)) == Ties(s, x, orders)
  {
    if orders != [] {
      SortOrdersStable(s, x, orders[1..]);
      InsertTies(s, x, orders[0], SortOrders(s, orders[1..]));
    }
  }

  /** What sortedness means for each direction: ascending never puts a larger key
      first, descending never puts a smaller key first. */
  lemma SortedMeaning(s: SortState, orders: seq<Order>, i: int, j: int)
    requires SortedBy(s, orders) && 0 <= i < j < |orders|
    ensures s.direction == Asc ==> !KeyLess(s.column, orders[j], orders[i])
    ensures s.direction == Desc ==> !KeyLess(s.column, orders[i], orders[j])
  {
    assert Compare(s, orders[i], orders[j]) <= 0;
    KeyLessAsymmetric(s.column, orders[i], orders[j]);
  }

  /** The list the Orders page renders: date-filtered, then sorted. */
  function VisibleOrders(orders: seq<Order>, range: DateRange, s: SortState): (r: seq<Order>)
    ensures multiset(r) == multiset(FilterByDate(orders, range))
  {
    SortOrders(s, FilterByDate(orders, range))
  }

  // ---------------------------------------------------------------------------
  // Item count

  /** `item.quantity || 0` */
  function QuantityOf(item: OrderItem): (r: int)
    ensures item.quantity.None? ==> r == 0
    ensures item.quantity.Some? ==> r == item.quantity.value
  {
    if item.quantity.Some? then item.quantity.value else 0
  }

  function SumQuantities(items: seq<OrderItem>): int
  {
    if items == [] then 0 else QuantityOf(items[0]) + SumQuantities(items[1..])
  }

  /** The "N items" cell: the summed quantities, or 0 without an item array. A
      single item counts its quantity, an item without one counts nothing, and the
      count never goes negative while no quantity does. */
  function ItemCount(o: Order): (r: int)
    ensures o.items.None? ==> r == 0
    ensures o.items.Some? && |o.items.value| == 1 ==> r == QuantityOf(o.items.value[0])
    ensures o.items.Some? && (forall i :: 0 <= i < |o.items.value| ==> QuantityOf(o.items.value[i]) >= 0) ==> r >= 0
  {
    if o.items.Some? then
      SumQuantitiesNonNegativeIf(o.items.value);
      assert |o.items.value| == 1 ==> SumQuantities(o.items.value) == QuantityOf(o.items.value[0]) + SumQuantities([]);
      SumQuantities(o.items.value)
    else 0
  }

  /** The count is additive over item lists and never negative when no quantity is. */
  lemma {:induction false} SumQuantitiesConcat(a: seq<OrderItem>, b: seq<OrderItem>)
    ensures SumQuantities(a + b) == SumQuantities(a) + SumQuantities(b)
  {
    if a != [] {
      assert (a + b)[0] == a[0];
      assert (a + b)[1..] == a[1..] + b;
      SumQuantitiesConcat(a[1..], b);
    } else {
      assert a + b == b;
    }
  }

  lemma {:induction false} SumQuantitiesNonNegative(items: seq<OrderItem>)
    requires forall i :: 0 <= i < |items| ==> QuantityOf(items[i]) >= 0
    ensures SumQuantities(items) >= 0
  {
    if items != [] {
      SumQuantitiesNonNegative(items[1..]);
    }
  }

  lemma SumQuantitiesNonNegativeIf(items: seq<OrderItem>)
    ensures (forall i :: 0 <= i < |items| ==> QuantityOf(items[i]) >= 0) ==> SumQuantities(items) >= 0
  {
    if forall i :: 0 <= i < |items| ==> QuantityOf(items[i]) >= 0 {
      SumQuantitiesNonNegative(items);
    }
  }

  // ---------------------------------------------------------------------------
  // Status cell

  /** The status badge text: an order without a status reads "Unknown". */
  function StatusLabel(o: Order): (r: string)
    ensures o.status == "" ==> r == "Unknown"
    ensures o.status != "" ==> r == Format.FormatStatus(o.status) && |r| == |o.status| && '_' !in r
  {
    Format.FormatStatusSpec(o.status);
    Format.FormatStatusOrUnknown(NonEmpty(o.status))
  }
}

=== FILE: payment_details.dfy ===
/** The payment detail page: the loading sequence that fetches a payment and then,
    best effort, its customer and its order, and the normalised record it renders. */
module PaymentDetails {
  import opened Common
  import opened Api
  import Format
  import Orders

  /** A payment record; `userId` and `order` hold identifiers. The detail page reads
      the method from `method`, the Payments list from `paymentMethod`. */
  datatype Payment = Payment(
    id: string,
    methodName: Option<string>,     // the `method` field
    paymentMethod: Option<string>,  // the `paymentMethod` field
    status: Option<string>,
    amount: real,
    userId: Option<string>,
    order: Option<string>)

  /** A fetched customer record. */
  datatype Customer = Customer(id: string, name: Format.Person)

  /** The page's state variables. */
  datatype PageState = PageState(
    payment: Option<Payment>,
    user: Option<Customer>,
    order: Option<Orders.Order>,
    loading: bool,
    error: Option<string>)

  const InitialPage: PageState := PageState(None, None, None, true, None)

  const LoadFailed := "Failed to load payment details. Please try again."

  /** One run of `fetchPaymentDetails`: the resulting state and the identifiers the
      customer and order requests were sent for, if they were sent. */
  datatype FetchResult = FetchResult(state: PageState, userRequest: Option<string>, orderRequest: Option<string>)

  /** The id a follow-up request is sent for: only a truthy reference is fetched. */
  function RequestFor(reference: Option<string>): (r: Option<string>)
    ensures r.Some? <==> Truthy(reference)
    ensures r.Some? ==> r == reference
  {
    if Truthy(reference) then reference else None
  }

  /** `fetchPaymentDetails` as the page has it. The payment reply's body is absent
      when the response has no `data`, which makes reading `paymentData.userId`
      throw into the outer handler. The customer and order replies are awaited only
      when the payment refers to them, and their failures are swallowed. Neither
      the customer nor the order state is reset first. */
  function FetchAsWritten(st: PageState, paymentReply: Outcome<Option<Payment>>,
                          userReply: Outcome<Option<Customer>>, orderReply: Outcome<Option<Orders.Order>>): (r: FetchResult)
    ensures !r.state.loading
    ensures r.state.error.Some? <==> paymentReply.Err? || paymentReply.body.None?
    ensures r.state.error.Some? ==> r.state.error == Some(LoadFailed) && r.userRequest.None? && r.orderRequest.None?
    ensures paymentReply.Ok? && paymentReply.body.Some? ==>
      r.state.payment == paymentReply.body &&
      r.userRequest == RequestFor(paymentReply.body.value.userId) &&
      r.orderRequest == RequestFor(paymentReply.body.value.order)
  {
    match paymentReply
    case Err(_) => FetchResult(st.(loading := false, error := Some(LoadFailed)), None, None)
    case Ok(None) => FetchResult(st.(payment := None, loading := false, error := Some(LoadFailed)), None, None)
    case Ok(Some(p)) =>
      var userRequest := RequestFor(p.userId);
      var orderRequest := RequestFor(p.order);
      var user := if userRequest.Some? && userReply.Ok? then userReply.body else st.user;
      var order := if orderRequest.Some? && orderReply.Ok? then orderReply.body else st.order;
      FetchResult(PageState(Some(p), user, order, false, None), userRequest, orderRequest)
  }

  /** The same sequence with the customer and the order cleared whenever they are
      not fetched successfully for this payment. */
  function Fetch(st: PageState, paymentReply: Outcome<Option<Payment>>,
                 userReply: Outcome<Option<Customer>>, orderReply: Outcome<Option<Orders.Order>>): (r: FetchResult)
    ensures !r.state.loading
    ensures r.state.error.Some? <==> paymentReply.Err? || paymentReply.body.None?
    ensures r.state.error.Some? ==> r.state.error == Some(LoadFailed) && r.userRequest.None? && r.orderRequest.None?
    ensures paymentReply.Ok? && paymentReply.body.Some? ==>
      r.state.payment == paymentReply.body &&
      r.userRequest == RequestFor(paymentReply.body.value.userId) &&
      r.orderRequest == RequestFor(paymentReply.body.value.order)
    ensures r.state.error.None? && r.state.user.Some? ==>
      r.userRequest.Some? && userReply == Ok(r.state.user)
    ensures r.state.error.None? && r.state.order.Some? ==>
      r.orderRequest.Some? && orderReply == Ok(r.state.order)
  {
    var w := FetchAsWritten(st, paymentReply, userReply, orderReply);
    if w.state.error.Some? then w
    else
      var user := if w.userRequest.Some? && userReply.Ok? then userReply.body else None;
      var order := if w.orderRequest.Some? && orderReply.Ok? then orderReply.body else None;
      w.(state := w.state.(user := user, order := order))
  }

  /** The two readings differ only in what they keep from before: from the fresh
      page state, where nothing was loaded yet, they agree. */
  lemma FetchAgreesOnFirstLoad(paymentReply: Outcome<Option<Payment>>,
                               userReply: Outcome<Option<Customer>>, orderReply: Outcome<Option<Orders.Order>>)
    ensures Fetch(InitialPage, paymentReply, userReply, orderReply) ==
            FetchAsWritten(InitialPage, paymentReply, userReply, orderReply)
  {
  }

  /** Moving from a payment with a customer to one without: as written, the second
      payment is shown with the first payment's customer. */
  lemma StaleCustomerAsWritten(first: Payment, second: Payment, alice: Customer, o: Outcome<Option<Orders.Order>>)
    requires first.userId == Some(alice.id) && alice.id != ""
    requires second.userId.None?
    ensures var loaded := FetchAsWritten(InitialPage, Ok(Some(first)), Ok(Some(alice)), o).state;
      var next := FetchAsWritten(loaded, Ok(Some(second)), Ok(Some(alice)), o).state;
      next.payment == Some(second) && next.user == Some(alice)
    ensures var loaded := Fetch(InitialPage, Ok(Some(first)), Ok(Some(alice)), o).state;
      var next := Fetch(loaded, Ok(Some(second)), Ok(Some(alice)), o).state;
      next.payment == Some(second) && next.user.None?
  {
  }

  /** `displayPayment`: the payment with `paymentMethod` copied from `method`
      (`methodName` here) and the fetched customer and order attached. */
  datatype Displayed = Displayed(payment: Payment, paymentMethod: Option<string>, user: Option<Customer>, order: Option<Orders.Order>)

  function DisplayPayment(st: PageState): (r: Option<Displayed>)
    ensures r.None? <==> st.payment.None?
    ensures r.Some? ==> r.value.payment == st.payment.value && r.value.paymentMethod == st.payment.value.methodName
    ensures r.Some? ==> r.value.user == st.user && r.value.order == st.order
  {
    match st.payment
    case None => None
    case Some(p) => Some(Displayed(p, p.methodName, st.user, st.order))
  }

  /** What the page shows. */
  datatype View = Spinner | ErrorAlert(message: string) | NotFoundAlert | Details(shown: Displayed)

  /** The render order: the spinner while loading, then the error, then the
      not-found warning, and only then the details. */
  function ViewOf(st: PageState): (r: View)
    ensures r.Spinner? <==> st.loading
    ensures r.ErrorAlert? <==> !st.loading && st.error.Some?
    ensures r.ErrorAlert? ==> r.message == st.error.value
    ensures r.NotFoundAlert? <==> !st.loading && st.error.None? && st.payment.None?
    ensures r.Details? ==> r.shown.payment == st.payment.value && r.shown.user == st.user && r.shown.order == st.order
  {
    if st.loading then Spinner
    else if st.error.Some? then ErrorAlert(st.error.value)
    else match DisplayPayment(st)
      case None => NotFoundAlert
      case Some(d) => Details(d)
  }

  /** After a load, the page shows either the error, or the payment just fetched
      with exactly the customer and order fetched for it, if any. A failed customer
      or order request never turns the page into an error. */
  lemma FetchThenView(st: PageState, paymentReply: Outcome<Option<Payment>>,
                      userReply: Outcome<Option<Customer>>, orderReply: Outcome<Option<Orders.Order>>)
    ensures var r := Fetch(st, paymentReply, userReply, orderReply);
      var v := ViewOf(r.state);
      (v == ErrorAlert(LoadFailed) <==> paymentReply.Err? || paymentReply.body.None?) &&
      (v.Details? ==>
        paymentReply == Ok(Some(v.shown.payment)) &&
        v.shown.paymentMethod == v.shown.payment.methodName &&
        (v.shown.user.Some? ==> Truthy(v.shown.payment.userId) && userReply == Ok(v.shown.user)) &&
        (v.shown.order.Some? ==> Truthy(v.shown.payment.order) && orderReply == Ok(v.shown.order)))
    ensures paymentReply.Ok? && paymentReply.body.Some? ==>
      ViewOf(Fetch(st, paymentReply, userReply, orderReply).state).Details?
  {
  }

  /** The payment-method line of the details: `paymentMethod || method` of the
      displayed copy, whose `paymentMethod` was overwritten with `method`. So the
      page reads `method` alone, whatever `paymentMethod` the record carries. */
  function MethodText(d: Displayed): (r: string)
    requires d.paymentMethod == d.payment.methodName
    ensures r == Format.FormatPaymentMethodOrUnknown(d.payment.methodName)
    ensures !Truthy(d.payment.methodName) ==> r == "Unknown"
  {
    Format.FormatPaymentMethodOrUnknown(if Truthy(d.paymentMethod) then d.paymentMethod else d.payment.methodName)
  }

  /** What the customer card shows. */
  datatype CustomerCell = Named(name: string) | Loading | NotAvailable

  /** The customer card as written: the customer when one is attached, otherwise a
      small spinner while the payment names a customer, otherwise a notice. */
  function CustomerCellOf(d: Displayed): (r: CustomerCell)
    ensures r.Named? <==> d.user.Some?
    ensures d.user.Some? ==> r == Named(Format.FormatCustomerName(Some(d.user.value.name)))
    ensures r.Loading? <==> d.user.None? && Truthy(d.payment.userId)
    ensures r.NotAvailable? <==> d.user.None? && !Truthy(d.payment.userId)
  {
    if d.user.Some? then Named(Format.FormatCustomerName(Some(d.user.value.name)))
    else if Truthy(d.payment.userId) then Loading
    else NotAvailable
  }

  /** As written, a customer request that fails (or answers without data) leaves
      the card spinning after the load is over: nothing fetches the customer again. */
  lemma FailedCustomerSpinsAsWritten(p: Payment, userReply: Outcome<Option<Customer>>,
                                     orderReply: Outcome<Option<Orders.Order>>)
    requires Truthy(p.userId)
    requires userReply.Err? || userReply.body.None?
    ensures var st := Fetch(InitialPage, Ok(Some(p)), userReply, orderReply).state;
      !st.loading && ViewOf(st).Details? && CustomerCellOf(ViewOf(st).shown) == Loading
  {
  }

  /** The customer card once the load is over: the spinner has nothing left to wait
      for, so without a customer the card says the information is not available. */
  function SettledCustomerCell(d: Displayed): (r: CustomerCell)
    ensures !r.Loading?
    ensures r.Named? <==> d.user.Some?
    ensures d.user.Some? ==> r == CustomerCellOf(d)
  {
    if d.user.Some? then CustomerCellOf(d) else NotAvailable
  }

  /** After a load, the settled card names the customer exactly when the payment
      refers to one and that customer's request returned it; otherwise it says the
      information is not available. */
  lemma FetchThenCustomerCell(st: PageState, p: Payment, userReply: Outcome<Option<Customer>>,
                              orderReply: Outcome<Option<Orders.Order>>)
    ensures var v := ViewOf(Fetch(st, Ok(Some(p)), userReply, orderReply).state);
      && v.Details?
      && (Truthy(p.userId) && userReply.Ok? && userReply.body.Some? ==>
            SettledCustomerCell(v.shown) == Named(Format.FormatCustomerName(Some(userReply.body.value.name))))
      && (!(Truthy(p.userId) && userReply.Ok? && userReply.body.Some?) ==>
            SettledCustomerCell(v.shown) == NotAvailable)
  {
  }
}

=== FILE: payments.dfy ===
/** The cell formatters of the Payments list. Unlike the detail page they pass an
    absent value through (`status?.…`, and `method` returned as is), so the list
    shows an empty cell where the detail page says "Unknown". The two pages also
    read the method from different fields: the list from `paymentMethod`, the
    detail page from `method`. */
module Payments {
  import opened Common
  import Format
  import PaymentDetails

  /** `status?.replace(…).replace(…)`: absent stays absent. */
  function FormatStatusCell(status: Option<string>): (r: Option<string>)
    ensures r.None? <==> status.None?
    ensures status.Some? ==> r == Some(Format.FormatStatus(status.value))
  {
    match status
    case None => None
    case Some(s) => Some(Format.FormatStatus(s))
  }

  /** `formatPaymentMethod` of the list: absent stays absent. */
  function FormatMethodCell(methodName: Option<string>): (r: Option<string>)
    ensures r.None? <==> methodName.None?
    ensures methodName.Some? ==> r == Some(Format.FormatPaymentMethod(methodName.value))
  {
    match methodName
    case None => None
    case Some(m) => Some(Format.FormatPaymentMethod(m))
  }

  /** The method column as written: the formatter applied to `paymentMethod`. */
  function MethodCellAsWritten(p: PaymentDetails.Payment): (r: Option<string>)
    ensures r.None? <==> p.paymentMethod.None?
    ensures p.paymentMethod.Some? ==> r == Some(Format.FormatPaymentMethod(p.paymentMethod.value))
  {
    FormatMethodCell(p.paymentMethod)
  }

  /** A record that carries its method only in `method`, the field the detail page
      reads, gets an empty method column on the list while its detail page names
      the method. */
  lemma MethodColumnBlankAsWritten(p: PaymentDetails.Payment, d: PaymentDetails.Displayed)
    requires p.paymentMethod.None? && Truthy(p.methodName)
    requires d.payment == p && d.paymentMethod == p.methodName
    ensures MethodCellAsWritten(p) == None
    ensures PaymentDetails.MethodText(d) == Format.FormatPaymentMethod(p.methodName.value)
  {
  }

  /** The method column reading `paymentMethod || method`, as the detail page's
      displayed copy does. */
  function MethodCell(p: PaymentDetails.Payment): (r: Option<string>)
    ensures r.None? <==> !Truthy(p.paymentMethod) && p.methodName.None?
    ensures Truthy(p.paymentMethod) ==> r == MethodCellAsWritten(p)
    ensures !Truthy(p.paymentMethod) && p.methodName.Some? ==> r == Some(Format.FormatPaymentMethod(p.methodName.value))
  {
    FormatMethodCell(if Truthy(p.paymentMethod) then p.paymentMethod else p.methodName)
  }

  /** On a record whose two method fields do not disagree (`paymentMethod` absent,
      empty or equal to `method`), the list and its detail page agree on every
      non-empty status and method; they differ exactly on an absent or empty one,
      which only the detail page calls "Unknown". */
  lemma ListAndDetailAgree(p: PaymentDetails.Payment, d: PaymentDetails.Displayed)
    requires !Truthy(p.paymentMethod) || p.paymentMethod == p.methodName
    requires d.payment == p && d.paymentMethod == p.methodName
    ensures Truthy(p.status) ==> FormatStatusCell(p.status) == Some(Format.FormatStatusOrUnknown(p.status))
    ensures Truthy(p.methodName) ==> MethodCell(p) == Some(PaymentDetails.MethodText(d))
    ensures !Truthy(p.status) ==>
      (Format.FormatStatusOrUnknown(p.status) == "Unknown" && FormatStatusCell(p.status) != Some("Unknown"))
    ensures !Truthy(p.methodName) ==>
      (PaymentDetails.MethodText(d) == "Unknown" && MethodCell(p) != Some("Unknown"))
  {
    if p.status.Some? && p.status.value == "" {
      assert Format.FormatStatus("") == "";
    }
  }
}

=== FILE: routes.dfy ===
/** The route table of the application and the `ProtectedRoute` guard that
    wraps every admin page. */
module Routes {
  import opened Common
  import opened Auth

  /** What `ProtectedRoute` renders. */
  datatype GuardOutcome = Spinner | RedirectToLogin | AccessDenied | RenderChildren

  /** `ProtectedRoute`: loading first, then authentication, then the admin role. */
  function ProtectedRoute(s: Session): (g: GuardOutcome)
    ensures g == Spinner <==> s.isLoading
    ensures g == RedirectToLogin <==> !s.isLoading && !s.isAuthenticated
    ensures g == AccessDenied <==> !s.isLoading && s.isAuthenticated && !s.isAdmin
    ensures g == RenderChildren <==> !s.isLoading && s.isAuthenticated && s.isAdmin
  {
    if s.isLoading then Spinner
    else if !s.isAuthenticated then RedirectToLogin
    else if !s.isAdmin then AccessDenied
    else RenderChildren
  }

  datatype Page =
    | LoginPage | ForgotPasswordPage | NotFoundPage
    | DashboardPage | OrdersPage | OrderDetailsPage | ServicesPage
    | UsersPage | UserDetailsPage | PaymentsPage | PaymentDetailsPage | ProfilePage

  /** One path segment of a route pattern: a literal name or a `:id` parameter. */
  datatype Segment = Literal(name: string) | Param

  /** A route: its pattern, the page it shows, and whether it is nested under
      `ProtectedRoute`. */
  datatype RouteDef = RouteDef(pattern: seq<Segment>, page: Page, isProtected: bool)

  const AppRoutes: seq<RouteDef> := [
    RouteDef([Literal("login")], LoginPage, false),
    RouteDef([Literal("forgot-password")], ForgotPasswordPage, false),
    RouteDef([], DashboardPage, true),
    RouteDef([Literal("orders")], OrdersPage, true),
    RouteDef([Literal("orders"), Param], OrderDetailsPage, true),
    RouteDef([Literal("services")], ServicesPage, true),
    RouteDef([Literal("users")], UsersPage, true),
    RouteDef([Literal("users"), Param], UserDetailsPage, true),
    RouteDef([Literal("payments")], PaymentsPage, true),
    RouteDef([Literal("payments"), Param], PaymentDetailsPage, true),
    RouteDef([Literal("profile")], ProfilePage, true)
  ]

  /** The catch-all `*` route. */
  const NotFoundRoute: RouteDef := RouteDef([], NotFoundPage, false)

  predicate IsAuthPage(p: Page)
  {
    p == LoginPage || p == ForgotPasswordPage
  }

  /** Splits a path at `/`, dropping empty segments; `current` is the segment
      being read. */
  function SplitPath(rest: string, current: string): (segments: seq<string>)
    ensures forall i :: 0 <= i < |segments| ==> segments[i] != "" && '/' !in segments[i]
    requires '/' !in current
    decreases |rest|
  {
    var closed := if current == "" then [] else [current];
    if rest == [] then closed
    else if rest[0] == '/' then closed + SplitPath(rest[1..], "")
    else SplitPath(rest[1..], current + [rest[0]])
  }

  function PathSegments(path: string): seq<string>
  {
    SplitPath(path, "")
  }

  /** Writes segments back as an absolute path. */
  function JoinPath(segments: seq<string>): string
  {
    if segments == [] then "" else "/" + segments[0] + JoinPath(segments[1..])
  }

  /** Reading a segment's characters into `current` and then the rest of the path. */
  lemma {:induction false} SplitPathSegment(segment: string, current: string, rest: string)
    requires '/' !in segment && '/' !in current
    requires rest == [] || rest[0] == '/'
    ensures SplitPath(segment + rest, current) == SplitPath(rest, current + segment)
    decreases |segment|
  {
    if segment != [] {
      assert (segment + rest)[0] == segment[0];
      assert (segment + rest)[1..] == segment[1..] + rest;
      assert current + segment == (current + [segment[0]]) + segment[1..];
      SplitPathSegment(segment[1..], current + [segment[0]], rest);
    } else {
      assert segment + rest == rest;
      assert current + segment == current;
    }
  }

  /** Splitting a joined path gives back its segments. */
  lemma {:induction false} SplitJoin(segments: seq<string>)
    requires forall i :: 0 <= i < |segments| ==> segments[i] != "" && '/' !in segments[i]
    ensures PathSegments(JoinPath(segments)) == segments
    decreases |segments|
  {
    if segments != [] {
      var tail := JoinPath(segments[1..]);
      assert tail == [] || tail[0] == '/';
      var path := JoinPath(segments);
      assert path == "/" + (segments[0] + tail);
      assert path[1..] == segments[0] + tail;
      SplitPathSegment(segments[0], "", tail);
      assert "" + segments[0] == segments[0];
      SplitJoin(segments[1..]);
      if tail == [] {
        assert SplitPath(tail, segments[0]) == [segments[0]];
      } else {
        assert SplitPath(tail, segments[0]) == [segments[0]] + SplitPath(tail[1..], "");
        assert SplitPath(tail, "") == SplitPath(tail[1..], "");
      }
    }
  }

  predicate Matches(pattern: seq<Segment>, segments: seq<string>)
  {
    |pattern| == |segments| &&
    forall i :: 0 <= i < |pattern| ==> pattern[i].Literal? ==> pattern[i].name == segments[i]
  }

  /** The first route of `routes` matching `segments`, if any. */
  function FindRoute(routes: seq<RouteDef>, segments: seq<string>): (r: Option<RouteDef>)
    ensures r.Some? ==> r.value in routes && Matches(r.value.pattern, segments)
    ensures r.None? <==> forall k :: 0 <= k < |routes| ==> !Matches(routes[k].pattern, segments)
  {
    if routes == [] then None
    else if Matches(routes[0].pattern, segments) then Some(routes[0])
    else FindRoute(routes[1..], segments)
  }

  /** The route React Router picks for `path`: the matching table entry, or the
      catch-all. */
  function Resolve(path: string): RouteDef
  {
    match FindRoute(AppRoutes, PathSegments(path))
    case Some(r) => r
    case None => NotFoundRoute
  }

  /** The length of a pattern and its first literal: no two routes share both. */
  function Shape(pattern: seq<Segment>): (nat, string)
  {
    (|pattern|, if pattern != [] && pattern[0].Literal? then pattern[0].name else "")
  }

  lemma ShapesDistinct(j: int, k: int)
    requires 0 <= j < k < |AppRoutes|
    ensures Shape(AppRoutes[j].pattern) != Shape(AppRoutes[k].pattern)
  {
  }

  /** No two routes of the table match the same path, so taking the first match
      agrees with React Router's ranking. */
  lemma RoutesDisjoint(segments: seq<string>, j: int, k: int)
    requires 0 <= j < k < |AppRoutes|
    ensures !(Matches(AppRoutes[j].pattern, segments) && Matches(AppRoutes[k].pattern, segments))
  {
    ShapesDistinct(j, k);
  }

  /** Exactly the admin pages sit under `ProtectedRoute`; the catch-all does not. */
  lemma ProtectedExactlyAdminPages(k: int)
    requires 0 <= k < |AppRoutes|
    ensures AppRoutes[k].isProtected <==> !IsAuthPage(AppRoutes[k].page)
  {
  }

  /** What the browser shows for `path` in session `s`. */
  datatype Screen = Loading | Redirect(to: string) | Denied | Show(page: Page)

  function ScreenFor(s: Session, path: string): Screen
  {
    var route := Resolve(path);
    if !route.isProtected then Show(route.page)
    else
      match ProtectedRoute(s)
      case Spinner => Loading
      case RedirectToLogin => Redirect(Api.LoginPath)
      case AccessDenied => Denied
      case RenderChildren => Show(route.page)
  }

  /** The authorization pipeline end to end: an admin page is on screen only for
      a settled, authenticated admin session; the login and forgot-password pages
      show whatever the session. */
  lemma AdminPagesNeedAdmin(s: Session, path: string)
    ensures ScreenFor(s, path).Show? && !IsAuthPage(ScreenFor(s, path).page) && ScreenFor(s, path).page != NotFoundPage ==>
      !s.isLoading && s.isAuthenticated && s.isAdmin
    ensures IsAuthPage(Resolve(path).page) ==> ScreenFor(s, path) == Show(Resolve(path).page)
  {
    var route := Resolve(path);
    if route != NotFoundRoute {
      var k :| 0 <= k < |AppRoutes| && AppRoutes[k] == route;
      ProtectedExactlyAdminPages(k);
    }
  }

  lemma SingleSegment(name: string)
    requires name != "" && '/' !in name
    ensures PathSegments("/" + name) == [name]
  {
    SplitJoin([name]);
    assert JoinPath([name]) == "/" + name;
  }

  /** "/login" is public: it shows the login page in every session, loading or not. */
  lemma LoginIsPublic(s: Session, name: string)
    requires name == "login"
    ensures ScreenFor(s, "/" + name) == Show(LoginPage)
  {
    SingleSegment(name);
    assert Matches(AppRoutes[0].pattern, [name]);
  }
}

=== FILE: services.dfy ===
/** The service form of the Services page: its ordered validator and the edits
    of its priced item list. */
module Services {
  import opened Common

  /** A price after `parseFloat`: a number, or NaN for unparseable input. */
  datatype Price = Number(amount: real) | NotANumber

  datatype Item = Item(name: string, price: Price)

  datatype ServiceForm = ServiceForm(
    name: string,
    description: string,
    category: string,
    icon: string,
    estimatedDuration: string,
    items: seq<Item>,
    isActive: bool)

  /** A service as the backend lists it. */
  datatype Service = Service(
    id: string,
    name: string,
    description: string,
    category: string,
    icon: string,
    estimatedDuration: string,
    items: seq<Item>,
    isActive: bool)

  /** `{ name: '', price: 0 }` */
  const BlankItem: Item := Item("", Number(0.0))

  /** The form the create modal opens with. */
  const BlankForm: ServiceForm :=
    ServiceForm("", "", "washing", "default_icon.png", "", [BlankItem], true)

  /** The failures `validateForm` reports, one per distinct message. */
  datatype Failure = NameRequired | DescriptionRequired | DurationRequired | ItemNamesRequired | ItemPricesInvalid

  /** The text `setFormError` shows for each failure. */
  function Message(f: Failure): string
  {
    match f
    case NameRequired => "Service name is required"
    case DescriptionRequired => "Service description is required"
    case DurationRequired => "Estimated duration is required"
    case ItemNamesRequired => "All item names are required"
    case ItemPricesInvalid => "All item prices must be valid numbers"
  }

  datatype Validation = Valid | Invalid(failure: Failure)

  /** Nothing but white space. */
  predicate Blank(s: string)
  {
    AllSpace(s)
  }

  /** `Blank` is the `!s.trim()` test of the form. */
  lemma BlankIsEmptyTrim(s: string)
    ensures Blank(s) <==> Trim(s) == ""
  {
    TrimEmptyIffAllSpace(s);
  }

  /** `!(isNaN(price) || price < 0)` */
  predicate PriceOk(p: Price)
  {
    p.Number? && p.amount >= 0.0
  }

  predicate ItemOk(item: Item)
  {
    !Blank(item.name) && PriceOk(item.price)
  }

  // ---------------------------------------------------------------------------
  // Validation

  /** The item loop of `validateForm`: per item, the name before the price. */
  function ValidateItems(items: seq<Item>): (r: Validation)
    ensures r == Valid <==> forall i :: 0 <= i < |items| ==> ItemOk(items[i])
    ensures r == Valid || r == Invalid(ItemNamesRequired) || r == Invalid(ItemPricesInvalid)
  {
    if items == [] then Valid
    else if Blank(items[0].name) then Invalid(ItemNamesRequired)
    else if !PriceOk(items[0].price) then Invalid(ItemPricesInvalid)
    else
      assert items == [items[0]] + items[1..];
      ValidateItems(items[1..])
  }

  /** `validateForm`: the first failing check's message, or valid. */
  function ValidateForm(f: ServiceForm): (r: Validation)
    ensures r == Valid <==>
      Trim(f.name) != "" && Trim(f.description) != "" && Trim(f.estimatedDuration) != "" &&
      forall i :: 0 <= i < |f.items| ==> ItemOk(f.items[i])
    ensures Trim(f.name) == "" ==> r == Invalid(NameRequired)
    ensures Trim(f.name) != "" && Trim(f.description) == "" ==> r == Invalid(DescriptionRequired)
    ensures Trim(f.name) != "" && Trim(f.description) != "" && Trim(f.estimatedDuration) == "" ==>
      r == Invalid(DurationRequired)
  {
    BlankIsEmptyTrim(f.name);
    BlankIsEmptyTrim(f.description);
    BlankIsEmptyTrim(f.estimatedDuration);
    if Blank(f.name) then Invalid(NameRequired)
    else if Blank(f.description) then Invalid(DescriptionRequired)
    else if Blank(f.estimatedDuration) then Invalid(DurationRequired)
    else ValidateItems(f.items)
  }

  /** One check of the validator: whether it passes, and what it reports if not. */
  datatype Check = Check(passes: bool, failure: Failure)

  /** The checks of `validateForm`, in the order it runs them. */
  function ItemChecks(items: seq<Item>): (r: seq<Check>)
    ensures |r| == 2 * |items|
  {
    if items == [] then []
    else
      [Check(!Blank(items[0].name), ItemNamesRequired), Check(PriceOk(items[0].price), ItemPricesInvalid)]
      + ItemChecks(items[1..])
  }

  function FormChecks(f: ServiceForm): seq<Check>
  {
    [Check(!Blank(f.name), NameRequired),
     Check(!Blank(f.description), DescriptionRequired),
     Check(!Blank(f.estimatedDuration), DurationRequired)]
    + ItemChecks(f.items)
  }

  /** The reference reading of an ordered validator: the first failing check wins. */
  function FirstFailure(checks: seq<Check>): (r: Validation)
    ensures r == Valid <==> forall k :: 0 <= k < |checks| ==> checks[k].passes
  {
    if checks == [] then Valid
    else if !checks[0].passes then Invalid(checks[0].failure)
    else
      assert forall k :: 1 <= k < |checks| ==> checks[k] == checks[1..][k - 1];
      FirstFailure(checks[1..])
  }

  /** The message reported is the one of the earliest failing check. */
  lemma {:induction false} FirstFailureIsEarliest(checks: seq<Check>, k: int)
    requires 0 <= k < |checks| && !checks[k].passes
    requires forall j :: 0 <= j < k ==> checks[j].passes
    ensures FirstFailure(checks) == Invalid(checks[k].failure)
  {
    if k > 0 {
      assert checks[0].passes;
      assert forall j :: 0 <= j < k - 1 ==> checks[1..][j] == checks[j + 1];
      FirstFailureIsEarliest(checks[1..], k - 1);
    }
  }

  lemma {:induction false} FirstFailureConcat(a: seq<Check>, b: seq<Check>)
    ensures FirstFailure(a + b) == (if FirstFailure(a).Invalid? then FirstFailure(a) else FirstFailure(b))
  {
    if a == [] {
      assert a + b == b;
    } else {
      assert (a + b)[0] == a[0];
      assert (a + b)[1..] == a[1..] + b;
      FirstFailureConcat(a[1..], b);
    }
  }

  lemma {:induction false} ValidateItemsIsFirstFailure(items: seq<Item>)
    ensures ValidateItems(items) == FirstFailure(ItemChecks(items))
  {
    if items != [] {
      var head := [Check(!Blank(items[0].name), ItemNamesRequired), Check(PriceOk(items[0].price), ItemPricesInvalid)];
      FirstFailureConcat(head, ItemChecks(items[1..]));
      assert head[1..] == [head[1]];
      assert FirstFailure(head[1..][1..]) == Valid;
      ValidateItemsIsFirstFailure(items[1..]);
    }
  }

  /** `validateForm` is exactly the first-failure-wins reading of its ordered
      checks: name, description, duration, then for each item its name and its
      price. So a blank name of a later item is reported only when every earlier
      item is valid, even when the later item's price is also bad. */
  lemma ValidateFormIsFirstFailure(f: ServiceForm)
    ensures ValidateForm(f) == FirstFailure(FormChecks(f))
  {
    var checks := FormChecks(f);
    if Blank(f.name) {
      FirstFailureIsEarliest(checks, 0);
    } else if Blank(f.description) {
      FirstFailureIsEarliest(checks, 1);
    } else if Blank(f.estimatedDuration) {
      FirstFailureIsEarliest(checks, 2);
    } else {
      var head := checks[..3];
      assert checks == head + ItemChecks(f.items);
      FirstFailureConcat(head, ItemChecks(f.items));
      assert FirstFailure(head) == Valid;
      ValidateItemsIsFirstFailure(f.items);
    }
  }

  /** The create form is rejected for its missing name before anything else. */
  lemma BlankFormNeedsName()
    ensures ValidateForm(BlankForm) == Invalid(NameRequired)
  {
    assert AllSpace(BlankForm.name);
  }

  // ---------------------------------------------------------------------------
  // Item list edits

  /** `addItemField`: appends a blank item. */
  function AddItemField(items: seq<Item>): (r: seq<Item>)
    ensures |r| == |items| + 1
    ensures r[..|items|] == items && r[|items|] == BlankItem
  {
    items + [BlankItem]
  }

  /** `items.filter((_, i) => i !== index)` */
  function DropIndex(items: seq<Item>, index: int): (r: seq<Item>)
    ensures 0 <= index < |items| ==> r == items[..index] + items[index + 1..]
    ensures !(0 <= index < |items|) ==> r == items
  {
    if items == [] then []
    else if index == 0 then items[1..]
    else
      assert items == [items[0]] + items[1..];
      [items[0]] + DropIndex(items[1..], index - 1)
  }

  /** `removeItemField`: drops one item, but never the last remaining one. */
  function RemoveItemField(items: seq<Item>, index: int): (r: seq<Item>)
    ensures |items| <= 1 ==> r == items
    ensures |items| > 1 && 0 <= index < |items| ==> r == items[..index] + items[index + 1..] && |r| == |items| - 1
    ensures |items| > 1 && !(0 <= index < |items|) ==> r == items
    ensures |items| >= 1 ==> |r| >= 1
  {
    if |items| > 1 then DropIndex(items, index) else items
  }

  /** The edit a `handleItemChange` call makes: a new name, or a new parsed price. */
  datatype ItemChange = SetName(name: string) | SetPrice(price: Price)

  /** `handleItemChange`: one field of one item is replaced. */
  function HandleItemChange(items: seq<Item>, index: int, change: ItemChange): (r: seq<Item>)
    requires 0 <= index < |items|
    ensures |r| == |items|
    ensures forall j :: 0 <= j < |items| && j != index ==> r[j] == items[j]
    ensures change.SetName? ==> r[index] == Item(change.name, items[index].price)
    ensures change.SetPrice? ==> r[index] == Item(items[index].name, change.price)
  {
    var item := items[index];
    items[index := match change
      case SetName(n) => item.(name := n)
      case SetPrice(p) => item.(price := p)]
  }

  /** `service.items.length > 0 ? service.items : [blank item]` */
  function EditFormItems(items: seq<Item>): (r: seq<Item>)
    ensures |r| >= 1
    ensures items != [] ==> r == items
    ensures items == [] ==> r == [BlankItem]
  {
    if |items| > 0 then items else [BlankItem]
  }

  /** `openEditModal`: the form copies the service, with the item fallback. */
  function OpenEditModal(s: Service): (f: ServiceForm)
    ensures f.name == s.name && f.description == s.description && f.category == s.category
    ensures f.icon == s.icon && f.estimatedDuration == s.estimatedDuration && f.isActive == s.isActive
    ensures |f.items| >= 1 && (s.items != [] ==> f.items == s.items)
  {
    ServiceForm(s.name, s.description, s.category, s.icon, s.estimatedDuration, EditFormItems(s.items), s.isActive)
  }

  /** The item list of an open form is never empty: both modals open with at
      least one item and no edit removes the last one. */
  lemma ItemsNeverEmpty(items: seq<Item>, index: int, change: ItemChange)
    ensures |BlankForm.items| >= 1
    ensures forall s: Service :: |OpenEditModal(s).items| >= 1
    ensures |items| >= 1 ==> |AddItemField(items)| >= 1 && |RemoveItemField(items, index)| >= 1
    ensures 0 <= index < |items| ==> |HandleItemChange(items, index, change)| >= 1
  {
  }

  /** Removing the item just added restores the list. */
  lemma {:induction false} AddThenRemove(items: seq<Item>)
    requires |items| >= 1
    ensures RemoveItemField(AddItemField(items), |items|) == items
  {
    var added := AddItemField(items);
    assert added[..|items|] + added[|items| + 1..] == items;
  }
}

=== FILE: sidebar.dfy ===
/** The sidebar's active-link test and its one-open-submenu toggle. */
module Sidebar {
  import opened Common

  /** `isActive(path)`: the current location is `path` itself or lies below it. */
  predicate IsActive(pathname: string, path: string)
  {
    pathname == path || StartsWith(pathname, path + "/")
  }

  /** The active test matches whole path segments: `path` is a prefix of the
      location that ends at the end of the location or right before a `/`. */
  lemma IsActiveSegmentBoundary(pathname: string, path: string)
    ensures IsActive(pathname, path) <==>
      StartsWith(pathname, path) && (|pathname| == |path| || pathname[|path|] == '/')
  {
    if StartsWith(pathname, path) && |pathname| > |path| && pathname[|path|] == '/' {
      assert pathname[..|path| + 1] == path + "/";
    }
    if StartsWith(pathname, path + "/") {
      assert pathname[..|path|] == (path + "/")[..|path|];
    }
  }

  /** "/orders" is active below "/orders/" but not on "/ordersx". */
  lemma IsActiveExamples(orders: string, detail: string, lookalike: string)
    requires orders == "/orders" && detail == orders + "/abc" && lookalike == orders + "x"
    ensures IsActive(detail, orders)
    ensures !IsActive(lookalike, orders)
  {
    assert detail[..|orders| + 1] == orders + "/";
    IsActiveSegmentBoundary(lookalike, orders);
    assert lookalike[|orders|] == 'x';
  }

  /** `toggleSubMenu(menu)`: closes `menu` when it is the open one, otherwise opens it. */
  function ToggleSubMenu(open: Option<string>, menu: string): (r: Option<string>)
    ensures r == Some(menu) <==> open != Some(menu)
    ensures r.None? <==> open == Some(menu)
  {
    if open == Some(menu) then None else Some(menu)
  }

  /** Toggling the same menu twice from the closed state closes it again; toggling
      a menu while another is open switches to it. */
  lemma ToggleSubMenuProperties(open: Option<string>, menu: string)
    ensures open.None? ==> ToggleSubMenu(ToggleSubMenu(open, menu), menu).None?
    ensures open.Some? && open.value != menu ==> ToggleSubMenu(open, menu) == Some(menu)
    ensures ToggleSubMenu(ToggleSubMenu(open, menu), menu) == (if open == Some(menu) then Some(menu) else None)
  {
  }
}

=== FILE: text_order.dfy ===
/** JavaScript's `<` on strings: lexicographic comparison character by character,
    a proper prefix sorting first. The list views sort by this order. */
module TextOrder {

  predicate Less(a: string, b: string)
  {
    if a == [] then b != []
    else if b == [] then false
    else if a[0] != b[0] then a[0] < b[0]
    else Less(a[1..], b[1..])
  }

  lemma {:induction false} LessIrreflexive(a: string)
    ensures !Less(a, a)
  {
    if a != [] {
      LessIrreflexive(a[1..]);
    }
  }

  lemma {:induction false} LessTransitive(a: string, b: string, c: string)
    requires Less(a, b) && Less(b, c)
    ensures Less(a, c)
  {
    if a != [] && b != [] && c != [] && a[0] == b[0] && b[0] == c[0] {
      LessTransitive(a[1..], b[1..], c[1..]);
    }
  }

  /** Any two distinct strings are ordered one way or the other. */
  lemma {:induction false} LessTrichotomous(a: string, b: string)
    ensures Less(a, b) || a == b || Less(b, a)
  {
    if a != [] && b != [] && a[0] == b[0] {
      LessTrichotomous(a[1..], b[1..]);
      if a[1..] == b[1..] {
        assert a == [a[0]] + a[1..] && b == [b[0]] + b[1..];
      }
    }
  }

  lemma LessAsymmetric(a: string, b: string)
    ensures Less(a, b) ==> !Less(b, a)
  {
    if Less(a, b) && Less(b, a) {
      LessTransitive(a, b, a);
      LessIrreflexive(a);
    }
  }

  /** Incomparability is transitive: the order is a strict weak order, which is what
      a sort needs from its comparator. */
  lemma LessNegativelyTransitive(a: string, b: string, c: string)
    ensures Less(a, c) ==> Less(a, b) || Less(b, c)
  {
    if Less(a, c) && !Less(a, b) && !Less(b, c) {
      LessTrichotomous(a, b);
      LessTrichotomous(b, c);
      if Less(b, a) {
        if Less(c, b) {
          LessTransitive(c, b, a);
        }
        LessTransitive(b, a, c);
        LessAsymmetric(c, a);
      } else if Less(c, b) {
        LessTransitive(a, c, b);
        LessAsymmetric(a, b);
      } else {
        LessIrreflexive(a);
      }
    }
  }
}

=== FILE: users.dfy ===
/** The Users page: the rule that administrators cannot be deleted, and the
    delete-confirmation flow that enforces it. */
module Users {
  import opened Common

  /** A row of the user table. */
  datatype UserRow = UserRow(id: string, fullName: string, email: string, role: string)

  /** The delete button is rendered only for users whose role is not "admin". */
  predicate CanDelete(u: UserRow)
  {
    u.role != "admin"
  }


  const DeleteFailed := "Failed to delete user. Please try again."

  /** The state of the delete-confirmation modal. */
  datatype DeleteState = DeleteState(
    userToDelete: Option<UserRow>,
    showDeleteConfirm: bool,
    deleteLoading: bool,
    error: Option<string>)

  const InitialDeleteState := DeleteState(None, false, false, None)

  /** `handleDeleteClick(user)`: remembers the user and opens the modal. */
  function HandleDeleteClick(st: DeleteState, u: UserRow): (r: DeleteState)
    ensures r.userToDelete == Some(u) && r.showDeleteConfirm
    ensures r.deleteLoading == st.deleteLoading && r.error == st.error
  {
    st.(userToDelete := Some(u), showDeleteConfirm := true)
  }

  /** What one `handleDeleteConfirm` call does: the new state, the user whose
      deletion was requested if any, and whether the list is fetched again. */
  datatype ConfirmResult = ConfirmResult(state: DeleteState, deleted: Option<UserRow>, refetch: bool)

  /** `handleDeleteConfirm`, with the backend's answer as `succeeded`. Without a
      selected user nothing happens; otherwise the user's deletion is requested and
      either the modal closes and the list reloads, or the page error is set and
      the modal stays open. */
  function HandleDeleteConfirm(st: DeleteState, succeeded: bool): (r: ConfirmResult)
    ensures st.userToDelete.None? ==> r == ConfirmResult(st, None, false)
    ensures st.userToDelete.Some? ==> r.deleted == st.userToDelete && !r.state.deleteLoading
    ensures st.userToDelete.Some? && succeeded ==>
      r.state.userToDelete.None? && !r.state.showDeleteConfirm && r.refetch && r.state.error == st.error
    ensures st.userToDelete.Some? && !succeeded ==>
      r.state.userToDelete == st.userToDelete && r.state.showDeleteConfirm == st.showDeleteConfirm &&
      !r.refetch && r.state.error == Some(DeleteFailed)
  {
    match st.userToDelete
    case None => ConfirmResult(st, None, false)
    case Some(u) =>
      if succeeded then
        ConfirmResult(st.(showDeleteConfirm := false, userToDelete := None, deleteLoading := false), Some(u), true)
      else
        ConfirmResult(st.(error := Some(DeleteFailed), deleteLoading := false), Some(u), false)
  }

  /** What the admin can do on the page. `Click(k)` presses the delete button on
      row `k` of the displayed table, which exists only for deletable users. */
  datatype UiEvent = Click(row: int) | Cancel | Confirm(succeeded: bool)

  /** One event; returns the new state and the user whose deletion it requested. */
  function Step(st: DeleteState, rows: seq<UserRow>, e: UiEvent): (r: (DeleteState, Option<UserRow>))
  {
    match e
    case Click(k) =>
      if 0 <= k < |rows| && CanDelete(rows[k]) then (HandleDeleteClick(st, rows[k]), None) else (st, None)
    case Cancel => (st.(showDeleteConfirm := false), None)
    case Confirm(ok) =>
      var c := HandleDeleteConfirm(st, ok);
      (c.state, c.deleted)
  }

  /** The users whose deletion a run of events requested, in order. */
  function Requests(st: DeleteState, rows: seq<UserRow>, events: seq<UiEvent>): seq<UserRow>
    decreases |events|
  {
    if events == [] then []
    else
      var (next, deleted) := Step(st, rows, events[0]);
      (if deleted.Some? then [deleted.value] else []) + Requests(next, rows, events[1..])
  }

  predicate SelectionDeletable(st: DeleteState)
  {
    st.userToDelete.Some? ==> CanDelete(st.userToDelete.value)
  }

  lemma StepKeepsSelectionDeletable(st: DeleteState, rows: seq<UserRow>, e: UiEvent)
    requires SelectionDeletable(st)
    ensures SelectionDeletable(Step(st, rows, e).0)
    ensures Step(st, rows, e).1.Some? ==> CanDelete(Step(st, rows, e).1.value)
  {
  }

  /** No sequence of clicks, cancels and confirmations ever requests the deletion
      of an administrator. */
  lemma {:induction false} NeverDeletesAdmin(st: DeleteState, rows: seq<UserRow>, events: seq<UiEvent>)
    requires SelectionDeletable(st)
    ensures forall i :: 0 <= i < |Requests(st, rows, events)| ==> Requests(st, rows, events)[i].role != "admin"
    decreases |events|
  {
    if events != [] {
      StepKeepsSelectionDeletable(st, rows, events[0]);
      var (next, deleted) := Step(st, rows, events[0]);
      NeverDeletesAdmin(next, rows, events[1..]);
    }
  }

  /** The page starts with nothing selected, so the rule holds from the start. */
  lemma PageNeverDeletesAdmin(rows: seq<UserRow>, events: seq<UiEvent>)
    ensures forall i :: 0 <= i < |Requests(InitialDeleteState, rows, events)| ==>
      Requests(InitialDeleteState, rows, events)[i].role != "admin"
  {
    NeverDeletesAdmin(InitialDeleteState, rows, events);
  }

  /** Confirming twice after one successful deletion sends no second request. */
  lemma ConfirmAfterSuccessIsNoOp(st: DeleteState, again: bool)
    requires st.userToDelete.Some?
    ensures var first := HandleDeleteConfirm(st, true);
      HandleDeleteConfirm(first.state, again).deleted.None?
  {
  }
}
